=== FILE: README.md ===
# Eclipse Communication Framework: registry, endpoint locator and identity helpers

A Dafny model of five sequential pieces of the Eclipse Communication
Framework (ECF), with proofs of what each promises:

- **Shared-object container factory** (`SharedObjectContainerFactory`). A
  name-keyed registry of container descriptions, and the checks made before
  an instantiator is asked to build a container. Module `ContainerFactory`.
- **Endpoint description locator** (`EndpointDescriptionLocator`), the
  bookkeeping behind remote-service discovery:
  - `Endpoints`: event-type names, and the notifications queued for each
    description;
  - `EndpointFilters`: scope-filter selection (`isMatch`) and listener
    holders;
  - `ManifestPaths`: splitting a bundle's `Remote-Service` header and
    turning each entry into a directory and file pattern;
  - `BundleTracker`: the per-bundle description map;
  - `LocatorListener`: the discovery listener's map from endpoint
    descriptions to discovery service IDs, with discovery, undiscovery and
    timestamp-based updates.
- **XMPPS namespace** (`XMPPSNamespace`). Stripping the `xmpps:` external
  form from the identifier argument. Module `XmppsNamespace`.
- **NTLM/SPNEGO proxy detection** (`NTLMProxyDetector`). A null-safe,
  case-blind check of the proxy's authentication scheme. Module
  `ProxyDetector`.
- **Add-abort exception** (`SharedObjectAddAbortException`). A record whose
  timeout is -1 unless the timeout constructor set it. Module `AddAbort`.

Conventions:
- Java `null` is `Option`, and a thrown exception is a `Result` failure.
- Hash-map iteration order is an explicit parameter `order`, which lists
  each key once.
- Behaviour implemented outside these classes is a function-typed
  parameter:
  - LDAP filter matching (`Matcher`);
  - `Bundle.findEntries` together with reading the XML files (`Finder`).
- The reflective resolution of argument classes is a plain input: the
  resolved class names, or `None` when resolution throws.

Endpoint descriptions are equal exactly when their ids are equal, as the
`EndpointDescription` class of the OSGi Remote Service Admin specification
defines. So the listener's map is indexed by id:
- a `put` under an id already present replaces the value and keeps the key
  object that was there;
- a key object is an `Endpoint` whose `isEcf` flag tells ECF's own
  description subclass from the standard one.

The event types are the constants of `EndpointEvent` in that specification:
ADDED = 1, REMOVED = 2, MODIFIED = 4 and MODIFIED_ENDMATCH = 8.

## Model

| member | source | states |
|---|---|---|
| ContainerFactory.AddDescription | framework/bundles/org.eclipse.ecf/src/org/eclipse/ecf/core/SharedObjectContainerFactory.java:90-96 | Adding null returns null and changes nothing; otherwise the description is stored under its name, every other name keeps its entry, and the description previously registered under that name (or null) is returned. |
| ContainerFactory.ContainsDescription | framework/bundles/org.eclipse.ecf/src/org/eclipse/ecf/core/SharedObjectContainerFactory.java:109-114 | A description is contained exactly when it is non-null and the lookup by its name finds an entry. |
| ContainerFactory.GetDescription | framework/bundles/org.eclipse.ecf/src/org/eclipse/ecf/core/SharedObjectContainerFactory.java:122-127 | A null or unregistered name gives null; otherwise the entry registered under the name. |
| ContainerFactory.GetDescriptionByName | framework/bundles/org.eclipse.ecf/src/org/eclipse/ecf/core/SharedObjectContainerFactory.java:135-145 | The registered entry for the name, or the not-found exception when the name is null or unregistered. |
| ContainerFactory.RemoveDescription | framework/bundles/org.eclipse.ecf/src/org/eclipse/ecf/core/SharedObjectContainerFactory.java:297-303 | Removing null changes nothing; otherwise the name is no longer registered, every other entry is unchanged, and the previous entry (or null) is returned. |
| ContainerFactory.GetDescriptions | framework/bundles/org.eclipse.ecf/src/org/eclipse/ecf/core/SharedObjectContainerFactory.java:87-89 | The returned list holds exactly the registered descriptions, one per name, as many as there are names. |
| ContainerFactory.MakeSharedObjectContainer | framework/bundles/org.eclipse.ecf/src/org/eclipse/ecf/core/SharedObjectContainerFactory.java:171-203 | A null description and an unregistered name are rejected; a registered description with a null instantiator is rejected; on success the instantiator is the one registered under the name and it is handed the caller's description, the resolved argument classes and the arguments. |
| ContainerFactory.MakeSharedObjectContainerByName | framework/bundles/org.eclipse.ecf/src/org/eclipse/ecf/core/SharedObjectContainerFactory.java:222-283 | The by-name overloads fail with not-found for a null or unregistered name, and otherwise build from the registered description. |
| ContainerFactory.WellFormedPreserved | framework/bundles/org.eclipse.ecf/src/org/eclipse/ecf/core/SharedObjectContainerFactory.java:90-96 | Adding and removing keep every description stored under its own name. |
| ContainerFactory.LastWriteWins | framework/bundles/org.eclipse.ecf/src/org/eclipse/ecf/core/SharedObjectContainerFactory.java:90-96 | Registering two descriptions under one name: the second add returns the first, and afterwards the lookup yields the second. |
| ContainerFactory.RemoveUndoesAdd | framework/bundles/org.eclipse.ecf/src/org/eclipse/ecf/core/SharedObjectContainerFactory.java:297-303 | Removing right after adding drops exactly that name and returns the added description; when the name was new the table is restored. |
| ContainerFactory.AddUndoesRemove | framework/bundles/org.eclipse.ecf/src/org/eclipse/ecf/core/SharedObjectContainerFactory.java:90-96 | Re-adding the description just removed restores the table and returns null. |
| ContainerFactory.RemovedNameNotFound | framework/bundles/org.eclipse.ecf/src/org/eclipse/ecf/core/SharedObjectContainerFactory.java:175-182 | After a removal the name is not contained, the strict lookup throws not-found, and making a container from that description throws not-found. |
| ContainerFactory.RegisteredInstantiatorIsUsed | framework/bundles/org.eclipse.ecf/src/org/eclipse/ecf/core/SharedObjectContainerFactory.java:178-202 | The container is built by the instantiator registered under the name, even when the caller's description object carries another one. |
| AddAbort.Construct | framework/bundles/org.eclipse.ecf/src/org/eclipse/ecf/core/SharedObjectAddAbortException.java:16-34 | The timeout constructor stores its int timeout unchanged; every other constructor leaves -1; a constructor taking a message or a cause stores exactly what it was given, null included; one not taking it leaves it null. |
| AddAbort.TimeoutIdentifiesConstructor | framework/bundles/org.eclipse.ecf/src/org/eclipse/ecf/core/SharedObjectAddAbortException.java:36-38 | A timeout read back other than -1 comes only from the timeout constructor and equals the int it was given; it always lies in the int range. |
| XmppsNamespace.GetScheme | providers/bundles/org.eclipse.ecf.provider.xmpp/src/org/eclipse/ecf/provider/xmpp/identity/XMPPSNamespace.java:52-54 | The scheme is "xmpps", which holds no scheme separator. |
| XmppsNamespace.GetInitFromExternalForm | providers/bundles/org.eclipse.ecf.provider.xmpp/src/org/eclipse/ecf/provider/xmpp/identity/XMPPSNamespace.java:26-39 | Non-null exactly when the first argument is a string starting with the scheme and separator, and then the argument is that prefix followed by the result. |
| XmppsNamespace.SeparatorFollowsScheme | providers/bundles/org.eclipse.ecf.provider.xmpp/src/org/eclipse/ecf/provider/xmpp/identity/XMPPSNamespace.java:31-32 | In a string in external form the first separator is the one right after the scheme. |
| XmppsNamespace.CreateInstance | providers/bundles/org.eclipse.ecf.provider.xmpp/src/org/eclipse/ecf/provider/xmpp/identity/XMPPSNamespace.java:41-50 | The stripped string is used when there is one; otherwise a null first argument or a string is passed on unchanged, and a missing argument array, an empty one or a non-string first argument raise the creation exception. |
| XmppsNamespace.ExternalFormRoundTrip | providers/bundles/org.eclipse.ecf.provider.xmpp/src/org/eclipse/ecf/provider/xmpp/identity/XMPPSNamespace.java:31-35 | For every name, the external form strips back to exactly that name, whatever arguments follow. |
| XmppsNamespace.BarePrefixGivesEmptyName | providers/bundles/org.eclipse.ecf.provider.xmpp/src/org/eclipse/ecf/provider/xmpp/identity/XMPPSNamespace.java:32-35 | The length guard never fires: the bare prefix yields the empty string, not null. |
| XmppsNamespace.ExternalFormAndBareNameAgree | providers/bundles/org.eclipse.ecf.provider.xmpp/src/org/eclipse/ecf/provider/xmpp/identity/XMPPSNamespace.java:41-46 | Creating from the external form of a name and from the bare name pass the same string on. |
| ProxyDetector.EqualsIgnoreCaseIsUpperCaseEquality | providers/bundles/org.eclipse.ecf.provider.filetransfer.httpclient4/src/org/eclipse/ecf/provider/filetransfer/httpclient4/NTLMProxyDetector.java:51 | Character-wise case-blind equality agrees with equality after upper-casing. |
| ProxyDetector.IsProxyType | providers/bundles/org.eclipse.ecf.provider.filetransfer.httpclient4/src/org/eclipse/ecf/provider/filetransfer/httpclient4/NTLMProxyDetector.java:39-52 | True exactly when the context, its proxy auth state, its auth scheme and the scheme name are all present and the name equals the target ignoring case. |
| ProxyDetector.DetectNtlmProxy | providers/bundles/org.eclipse.ecf.provider.filetransfer.httpclient4/src/org/eclipse/ecf/provider/filetransfer/httpclient4/NTLMProxyDetector.java:35-37 | True exactly when the proxy's scheme name is present and is "NTLM" in any case. |
| ProxyDetector.DetectSpnegoProxy | providers/bundles/org.eclipse.ecf.provider.filetransfer.httpclient4/src/org/eclipse/ecf/provider/filetransfer/httpclient4/NTLMProxyDetector.java:63-65 | True exactly when the proxy's scheme name is present and is "NEGOTIATE" in any case. |
| ProxyDetector.DetectionsExclusive | providers/bundles/org.eclipse.ecf.provider.filetransfer.httpclient4/src/org/eclipse/ecf/provider/filetransfer/httpclient4/NTLMProxyDetector.java:35-37 | No context is detected as both an NTLM and a SPNEGO proxy. |
| ProxyDetector.LowerCaseNtlmDetected | providers/bundles/org.eclipse.ecf.provider.filetransfer.httpclient4/src/org/eclipse/ecf/provider/filetransfer/httpclient4/NTLMProxyDetector.java:63-65 | A lower-case "ntlm" scheme is detected as NTLM and not as SPNEGO. |
| Endpoints.EventTypeName | osgi/bundles/org.eclipse.ecf.osgi.services.remoteserviceadmin/src/org/eclipse/ecf/osgi/services/remoteserviceadmin/EndpointDescriptionLocator.java:566-572 | Each of the four event types has its own name, and exactly the other ints are "unknown". |
| Endpoints.EventTypeNamesDistinct | osgi/bundles/org.eclipse.ecf.osgi.services.remoteserviceadmin/src/org/eclipse/ecf/osgi/services/remoteserviceadmin/EndpointDescriptionLocator.java:566-572 | A known event type shares its name with no other int. |
| Endpoints.DescriptionNotes | osgi/bundles/org.eclipse.ecf.osgi.services.remoteserviceadmin/src/org/eclipse/ecf/osgi/services/remoteserviceadmin/EndpointDescriptionLocator.java:1272-1281 | A discovered description is announced to the endpoint listeners as discovered and by an ADDED event; an undiscovered one as undiscovered and by a REMOVED event; no event of another type and no listener call with the other flag is queued, and the event comes before the listener call. |
| Endpoints.DescriptionsNotesAnnounce | osgi/bundles/org.eclipse.ecf.osgi.services.remoteserviceadmin/src/org/eclipse/ecf/osgi/services/remoteserviceadmin/EndpointDescriptionLocator.java:1014-1016 | Handling a run of descriptions announces exactly those descriptions, to the endpoint listeners and by events of the announcing type; nothing is announced with the opposite flag or by an event of another type. |
| Endpoints.DescriptionsNotesEvents | osgi/bundles/org.eclipse.ecf.osgi.services.remoteserviceadmin/src/org/eclipse/ecf/osgi/services/remoteserviceadmin/EndpointDescriptionLocator.java:1068-1070 | Handling a run of descriptions queues an event of the announcing type (ADDED or REMOVED) for exactly those descriptions, and no event of any other type. |
| EndpointFilters.IsMatch | osgi/bundles/org.eclipse.ecf.osgi.services.remoteserviceadmin/src/org/eclipse/ecf/osgi/services/remoteserviceadmin/EndpointDescriptionLocator.java:899-911 | Null exactly when no filter is non-null, non-empty and matching; otherwise the first such filter in list order, never empty. |
| EndpointFilters.FirstEligibleUnique | osgi/bundles/org.eclipse.ecf.osgi.services.remoteserviceadmin/src/org/eclipse/ecf/osgi/services/remoteserviceadmin/EndpointDescriptionLocator.java:900-904 | The first matching filter of a list is unique. |
| EndpointFilters.SkippedPrefixIrrelevant | osgi/bundles/org.eclipse.ecf.osgi.services.remoteserviceadmin/src/org/eclipse/ecf/osgi/services/remoteserviceadmin/EndpointDescriptionLocator.java:900-908 | Null, empty, non-matching and invalid filters in front of a list do not change the choice. |
| EndpointFilters.MatchingHoldersSound | osgi/bundles/org.eclipse.ecf.osgi.services.remoteserviceadmin/src/org/eclipse/ecf/osgi/services/remoteserviceadmin/EndpointDescriptionLocator.java:878-894 | Every holder in the result is the one some reference contributes: a present listener, the description, and the filter chosen for that listener's scope. |
| EndpointFilters.MatchingHoldersComplete | osgi/bundles/org.eclipse.ecf.osgi.services.remoteserviceadmin/src/org/eclipse/ecf/osgi/services/remoteserviceadmin/EndpointDescriptionLocator.java:878-894 | Every reference whose listener is present and whose non-empty scope has a matching filter contributes its holder to the result. |
| EndpointFilters.MatchingHoldersAppend | osgi/bundles/org.eclipse.ecf.osgi.services.remoteserviceadmin/src/org/eclipse/ecf/osgi/services/remoteserviceadmin/EndpointDescriptionLocator.java:879-894 | Scanning two runs of references in turn gives the first run's holders followed by the second's. |
| EndpointFilters.MatchingHoldersSingle | osgi/bundles/org.eclipse.ecf.osgi.services.remoteserviceadmin/src/org/eclipse/ecf/osgi/services/remoteserviceadmin/EndpointDescriptionLocator.java:881-893 | A single reference contributes its own holder exactly once, or nothing. |
| EndpointFilters.GetMatchingEndpointListenerHolders | osgi/bundles/org.eclipse.ecf.osgi.services.remoteserviceadmin/src/org/eclipse/ecf/osgi/services/remoteserviceadmin/EndpointDescriptionLocator.java:875-897 | Null exactly for null references; every holder is a present listener with the description and the filter chosen for its scope, and every such listener has its holder. Order and multiplicity are stated by `EndpointFilters.ListenerHoldersInOrder`. |
| EndpointFilters.ListenerHoldersInOrder | osgi/bundles/org.eclipse.ecf.osgi.services.remoteserviceadmin/src/org/eclipse/ecf/osgi/services/remoteserviceadmin/EndpointDescriptionLocator.java:875-897 | The holder list follows the reference array: the holders of a concatenation are those of its parts in order, and one reference yields one holder (a present listener whose non-empty scope has a matching filter) or none. |
| EndpointFilters.UnscopedListenerIgnored | osgi/bundles/org.eclipse.ecf.osgi.services.remoteserviceadmin/src/org/eclipse/ecf/osgi/services/remoteserviceadmin/EndpointDescriptionLocator.java:887-893 | A listener with no scope, or only null and empty filters, gets no holder whatever the matcher says. |
| EndpointFilters.GetMatchingEndpointEventListenerHolders | osgi/bundles/org.eclipse.ecf.osgi.services.remoteserviceadmin/src/org/eclipse/ecf/osgi/services/remoteserviceadmin/EndpointDescriptionLocator.java:850-873 | Null exactly for null references; the result has one entry per holder of the listener scan, at the same position, each tagged with the event type. |
| ManifestPaths.JoinSplitAll | osgi/bundles/org.eclipse.ecf.osgi.services.remoteserviceadmin/src/org/eclipse/ecf/osgi/services/remoteserviceadmin/EndpointDescriptionLocator.java:962 | Splitting on the separator loses nothing: joining the pieces gives the header back. |
| ManifestPaths.SplitAllJoin | osgi/bundles/org.eclipse.ecf.osgi.services.remoteserviceadmin/src/org/eclipse/ecf/osgi/services/remoteserviceadmin/EndpointDescriptionLocator.java:962 | Splitting a join of separator-free pieces gives the pieces back. |
| ManifestPaths.DropTrailingEmpty | osgi/bundles/org.eclipse.ecf.osgi.services.remoteserviceadmin/src/org/eclipse/ecf/osgi/services/remoteserviceadmin/EndpointDescriptionLocator.java:962 | What `split` keeps is a prefix of the pieces, only empty pieces are dropped, and the last kept piece is non-empty. |
| ManifestPaths.JavaSplitKeepsEntries | osgi/bundles/org.eclipse.ecf.osgi.services.remoteserviceadmin/src/org/eclipse/ecf/osgi/services/remoteserviceadmin/EndpointDescriptionLocator.java:962-965 | Dropping trailing empty pieces loses no non-empty entry. |
| ManifestPaths.JavaSplit | osgi/bundles/org.eclipse.ecf.osgi.services.remoteserviceadmin/src/org/eclipse/ecf/osgi/services/remoteserviceadmin/EndpointDescriptionLocator.java:962 | A header without a comma is one entry; no entry holds a comma; with a comma, the last entry kept is non-empty, and the entries followed by the empty ones dropped join back to the header. |
| ManifestPaths.SplitTwoEntries | osgi/bundles/org.eclipse.ecf.osgi.services.remoteserviceadmin/src/org/eclipse/ecf/osgi/services/remoteserviceadmin/EndpointDescriptionLocator.java:962 | A header of two comma-free entries, the second non-empty, splits into exactly those two. |
| ManifestPaths.ParsePath | osgi/bundles/org.eclipse.ecf.osgi.services.remoteserviceadmin/src/org/eclipse/ecf/osgi/services/remoteserviceadmin/EndpointDescriptionLocator.java:969-998 | An empty entry is ignored; an entry ending in "/" searches that directory for "*.xml"; an entry without "/" searches the root for itself; otherwise the pattern is the non-empty, slash-free tail of the entry. |
| ManifestPaths.PathRoundTrip | osgi/bundles/org.eclipse.ecf.osgi.services.remoteserviceadmin/src/org/eclipse/ecf/osgi/services/remoteserviceadmin/EndpointDescriptionLocator.java:981-996 | An entry "dir/file" searches for "file" in "dir", and in the root when "dir" is empty. |
| BundleTracker.HandleEndpointDescriptionPath | osgi/bundles/org.eclipse.ecf.osgi.services.remoteserviceadmin/src/org/eclipse/ecf/osgi/services/remoteserviceadmin/EndpointDescriptionLocator.java:969-1018 | An empty entry, or one yielding nothing, changes nothing; an entry yielding descriptions replaces the bundle's map entry with them. |
| BundleTracker.EntryAnnouncesFound | osgi/bundles/org.eclipse.ecf.osgi.services.remoteserviceadmin/src/org/eclipse/ecf/osgi/services/remoteserviceadmin/EndpointDescriptionLocator.java:1011-1018 | One entry announces exactly the descriptions it yields, as discovered and by ADDED events, and nothing else. |
| BundleTracker.HandleAddingBundleAsWritten | osgi/bundles/org.eclipse.ecf.osgi.services.remoteserviceadmin/src/org/eclipse/ecf/osgi/services/remoteserviceadmin/EndpointDescriptionLocator.java:955-967 | Nothing happens once the locator is closed or for a bundle without the header; otherwise every description the entries yield is announced as discovered and by ADDED events, and the map entry holds what the last productive entry yielded. |
| BundleTracker.HandlePathsAnnouncesAll | osgi/bundles/org.eclipse.ecf.osgi.services.remoteserviceadmin/src/org/eclipse/ecf/osgi/services/remoteserviceadmin/EndpointDescriptionLocator.java:963-965 | Handling the entries in turn queues the notifications of every description found, in header order. |
| BundleTracker.HandlePathsKeepsLast | osgi/bundles/org.eclipse.ecf.osgi.services.remoteserviceadmin/src/org/eclipse/ecf/osgi/services/remoteserviceadmin/EndpointDescriptionLocator.java:1011-1013 | Handling the entries in turn leaves the bundle's map entry at what the last productive entry found, and no entry when none was productive. |
| BundleTracker.HandlePathsAsWritten | osgi/bundles/org.eclipse.ecf.osgi.services.remoteserviceadmin/src/org/eclipse/ecf/osgi/services/remoteserviceadmin/EndpointDescriptionLocator.java:955-1018 | As written, every description found is announced as discovered, but the bundle entry holds only what the last productive path found. |
| BundleTracker.EntryOnlyWhenFound | osgi/bundles/org.eclipse.ecf.osgi.services.remoteserviceadmin/src/org/eclipse/ecf/osgi/services/remoteserviceadmin/EndpointDescriptionLocator.java:1011-1013 | A bundle gets an entry only when some description was found, and other bundles' entries are untouched. |
| BundleTracker.HandleRemovedBundle | osgi/bundles/org.eclipse.ecf.osgi.services.remoteserviceadmin/src/org/eclipse/ecf/osgi/services/remoteserviceadmin/EndpointDescriptionLocator.java:1064-1071 | The bundle's entry goes, other entries stay, and exactly its descriptions are announced as undiscovered and by REMOVED events; no ADDED or MODIFIED event and no discovery is queued; nothing is announced for an unknown bundle. |
| BundleTracker.Close | osgi/bundles/org.eclipse.ecf.osgi.services.remoteserviceadmin/src/org/eclipse/ecf/osgi/services/remoteserviceadmin/EndpointDescriptionLocator.java:1073-1081 | Closing the customizer leaves no bundle entry. |
| BundleTracker.CloseForgetsBundles | osgi/bundles/org.eclipse.ecf.osgi.services.remoteserviceadmin/src/org/eclipse/ecf/osgi/services/remoteserviceadmin/EndpointDescriptionLocator.java:1064-1081 | After closing, stopping any bundle changes nothing and announces nothing. |
| BundleTracker.EarlierEntryNeverRemoved | osgi/bundles/org.eclipse.ecf.osgi.services.remoteserviceadmin/src/org/eclipse/ecf/osgi/services/remoteserviceadmin/EndpointDescriptionLocator.java:1011-1013 | With two productive header paths, a description from the first is announced (listener call and ADDED event) when the bundle starts, and neither undiscovered nor sent a REMOVED event when it stops. |
| BundleTracker.HandlePathsAccumulatingRecordsAll | osgi/bundles/org.eclipse.ecf.osgi.services.remoteserviceadmin/src/org/eclipse/ecf/osgi/services/remoteserviceadmin/EndpointDescriptionLocator.java:1011-1017 | Corrected, the bundle entry grows by everything found, in header order, and everything found is announced. |
| BundleTracker.AddThenRemoveBalanced | osgi/bundles/org.eclipse.ecf.osgi.services.remoteserviceadmin/src/org/eclipse/ecf/osgi/services/remoteserviceadmin/EndpointDescriptionLocator.java:1064-1071 | Corrected, starting and stopping a bundle restores the map, undiscovers exactly the descriptions discovered, and sends REMOVED events for exactly the descriptions sent ADDED events. |
| LocatorListener.FindEndpoint | osgi/bundles/org.eclipse.ecf.osgi.services.remoteserviceadmin/src/org/eclipse/ecf/osgi/services/remoteserviceadmin/EndpointDescriptionLocator.java:1106-1116 | Null exactly when no entry holds a service ID at the location; otherwise the key of an entry that does. |
| LocatorListener.FindEndpointNoneIff | osgi/bundles/org.eclipse.ecf.osgi.services.remoteserviceadmin/src/org/eclipse/ecf/osgi/services/remoteserviceadmin/EndpointDescriptionLocator.java:1106-1116 | Over a full iteration of the keys, the search fails exactly when the location is unknown. |
| LocatorListener.FindEndpointOrderIndependent | osgi/bundles/org.eclipse.ecf.osgi.services.remoteserviceadmin/src/org/eclipse/ecf/osgi/services/remoteserviceadmin/EndpointDescriptionLocator.java:1107-1113 | With consistent bookkeeping the description found does not depend on the map's iteration order. |
| LocatorListener.UpdateEDServiceID | osgi/bundles/org.eclipse.ecf.osgi.services.remoteserviceadmin/src/org/eclipse/ecf/osgi/services/remoteserviceadmin/EndpointDescriptionLocator.java:1122-1127 | The existing entry is removed and its service IDs plus the new one are put under the update; an entry already under the update's id keeps its key object; every other entry is unchanged. |
| LocatorListener.EcfScan | osgi/bundles/org.eclipse.ecf.osgi.services.remoteserviceadmin/src/org/eclipse/ecf/osgi/services/remoteserviceadmin/EndpointDescriptionLocator.java:1213-1228 | The ECF loop reports an update exactly when some ECF key with the received id has an older timestamp, and ends holding the last ECF key iterated. |
| LocatorListener.OsgiScan | osgi/bundles/org.eclipse.ecf.osgi.services.remoteserviceadmin/src/org/eclipse/ecf/osgi/services/remoteserviceadmin/EndpointDescriptionLocator.java:1242-1262 | The other loop returns early exactly when a key with the received id has an equal modified value, otherwise reports an update exactly when such a key's value is missing or older, and ends holding the last key iterated. |
| LocatorListener.EcfScanDecides | osgi/bundles/org.eclipse.ecf.osgi.services.remoteserviceadmin/src/org/eclipse/ecf/osgi/services/remoteserviceadmin/EndpointDescriptionLocator.java:1213-1229 | Over a full iteration the ECF loop decides an update exactly when the known description with the received id is older. |
| LocatorListener.OsgiScanDecides | osgi/bundles/org.eclipse.ecf.osgi.services.remoteserviceadmin/src/org/eclipse/ecf/osgi/services/remoteserviceadmin/EndpointDescriptionLocator.java:1242-1263 | Over a full iteration the other loop decides an update exactly when the known description with the received id is older. |
| LocatorListener.EcfUpdateCheck | osgi/bundles/org.eclipse.ecf.osgi.services.remoteserviceadmin/src/org/eclipse/ecf/osgi/services/remoteserviceadmin/EndpointDescriptionLocator.java:1206-1235 | An ECF description is an update exactly when the known one with its id is an ECF description with an older timestamp; the last ECF key iterated is then re-keyed to it. |
| LocatorListener.OsgiUpdateCheck | osgi/bundles/org.eclipse.ecf.osgi.services.remoteserviceadmin/src/org/eclipse/ecf/osgi/services/remoteserviceadmin/EndpointDescriptionLocator.java:1235-1268 | Any other description is an update exactly when the known one with its id has a missing or older modified value; the last key iterated is then re-keyed to it. |
| LocatorListener.IsEndpointDescriptionUpdate | osgi/bundles/org.eclipse.ecf.osgi.services.remoteserviceadmin/src/org/eclipse/ecf/osgi/services/remoteserviceadmin/EndpointDescriptionLocator.java:1204-1270 | Returns the received description exactly for an update, and then re-keys the map as its branch does; otherwise returns null and leaves the map alone. |
| LocatorListener.UpdateOfSoleEntry | osgi/bundles/org.eclipse.ecf.osgi.services.remoteserviceadmin/src/org/eclipse/ecf/osgi/services/remoteserviceadmin/EndpointDescriptionLocator.java:1122-1127 | When the older description is the only entry, an update replaces it by the received one and adds the new service ID. |
| LocatorListener.UpdateRekeysLastIterated | osgi/bundles/org.eclipse.ecf.osgi.services.remoteserviceadmin/src/org/eclipse/ecf/osgi/services/remoteserviceadmin/EndpointDescriptionLocator.java:1213-1230 | Modelled as written: with the older same-id entry iterated before another ECF entry, the other entry disappears, the same-id entry keeps the stale key object, and its own service IDs are replaced by the other entry's plus the new one, so they are lost by the `put`. |
| LocatorListener.HandleService | osgi/bundles/org.eclipse.ecf.osgi.services.remoteserviceadmin/src/org/eclipse/ecf/osgi/services/remoteserviceadmin/EndpointDescriptionLocator.java:1148-1202 | A closed listener and a non-remote-service ID are ignored; a discovery at a known location or without a description is ignored; a new description is recorded and announced, an already-known one ignored, an update announced as MODIFIED; an undiscovery at a known location removes the whole entry found and announces it removed. |
| LocatorListener.NonRemoteServiceIgnored | osgi/bundles/org.eclipse.ecf.osgi.services.remoteserviceadmin/src/org/eclipse/ecf/osgi/services/remoteserviceadmin/EndpointDescriptionLocator.java:1095-1100 | An event for a service ID whose service types do not include the remote-service discovery type changes nothing and notifies no one, for discovery and undiscovery alike. |
| LocatorListener.Close | osgi/bundles/org.eclipse.ecf.osgi.services.remoteserviceadmin/src/org/eclipse/ecf/osgi/services/remoteserviceadmin/EndpointDescriptionLocator.java:1315-1321 | Closing drops the locator and clears the map. |
| LocatorListener.ClosedListenerInert | osgi/bundles/org.eclipse.ecf.osgi.services.remoteserviceadmin/src/org/eclipse/ecf/osgi/services/remoteserviceadmin/EndpointDescriptionLocator.java:1149-1150 | A closed listener ignores every event. |
| LocatorListener.HandleServicePreservesConsistent | osgi/bundles/org.eclipse.ecf.osgi.services.remoteserviceadmin/src/org/eclipse/ecf/osgi/services/remoteserviceadmin/EndpointDescriptionLocator.java:1148-1202 | Every event keeps each entry under its key's id, keeps every entry non-empty, and keeps every location held by at most one service ID. |
| LocatorListener.DiscoverThenUndiscover | osgi/bundles/org.eclipse.ecf.osgi.services.remoteserviceadmin/src/org/eclipse/ecf/osgi/services/remoteserviceadmin/EndpointDescriptionLocator.java:1159-1198 | Discovering a service at a new location and undiscovering it restores the listener, announcing the description added and then removed. |
| LocatorListener.UndiscoverFresh | osgi/bundles/org.eclipse.ecf.osgi.services.remoteserviceadmin/src/org/eclipse/ecf/osgi/services/remoteserviceadmin/EndpointDescriptionLocator.java:1192-1196 | Undiscovering the service just recorded removes exactly its entry and announces it removed. |
| LocatorListener.RediscoveryIgnored | osgi/bundles/org.eclipse.ecf.osgi.services.remoteserviceadmin/src/org/eclipse/ecf/osgi/services/remoteserviceadmin/EndpointDescriptionLocator.java:1159-1162 | A second discovery of a service already recorded changes nothing. |

## Left out

- The replication and transaction protocol of shared objects. It is not part of this model; only the abort exception is.
- OSGi service and bundle trackers, the asynchronous event queues, `AccessController`, `synchronized` locking and tracing. The model is sequential: each call completes before the next begins.
- Reading endpoint description files, the reader service and its failures. They are folded into the `Finder` parameter, which yields the descriptions one search produces.
- The discovered-endpoint-description factory. Its result is part of `ServiceInfo`. A null factory result, a null description and a thrown exception all appear as `None`.
- `RemoteConstants.DISCOVERY_SERVICE_TYPE` and `Namespace.SCHEME_SEPARATOR` are defined in classes that are not part of this model. The first is the parameter `remoteServiceType`. The second is the constant ':', which does not occur in "xmpps".
- The ECF `EndpointDescription` subclass is not part of this model. It is taken to keep the id-based equality of the OSGi class it extends, and its timestamp is `Endpoint.timestamp`.
- `PropertiesUtil.getOSGiEndpointModifiedValue` and the `(Long)` cast of the previous modified property are not modelled. Both values are `Endpoint.modified`; a property of another type, which would throw `ClassCastException`, is not represented.
- `getMapFromProperties` and `PropertiesUtil.getStringPlusProperty` are not modelled. A listener reference carries its scope as a list of optional strings.
- `LocatorServiceListener.triggerDiscovery` (always false) and the listener registration in the constructor are not modelled.
- The privileged wrappers around the holder scans are not modelled; only the scans over a reference array are.
- `String.equalsIgnoreCase` is modelled over ASCII letters. Unicode case mapping beyond ASCII is not represented.
- `AbstractFactory.getClassesForTypes`, `getInstantiator` and `makeInstance` are not modelled. They are reflective: their failures are `LoadFailed` or a `None` resolution, and the container the instantiator builds is the `ContainerRequest` it is handed.
- The `Hashtable` rejection of a null description name (`NullPointerException`) is not modelled: names are plain strings.
- Exception messages, stack traces and the messages derived from a cause are not modelled.
- `XMPPSID` construction and its own checks are not modelled; `createInstance` yields the string it is handed.
- AddAbort.Construct: the cause-only constructor stores no message. The superclass chain (`SharedObjectAddException`, `ECFException`, `Throwable`) may derive a message from the cause, but it is not part of this model.
- AddAbort.GetTimeout: it carries no contract of its own. What it returns is stated by `AddAbort.TimeoutIdentifiesConstructor` over every constructor.

## Findings

| source | as written | input that shows it | evidently intended | confidence | as-written member | corrected member |
|---|---|---|---|---|---|---|
| osgi/bundles/org.eclipse.ecf.osgi.services.remoteserviceadmin/src/org/eclipse/ecf/osgi/services/remoteserviceadmin/EndpointDescriptionLocator.java:1011-1017 | each header path that yields descriptions replaces the bundle's map entry with its own descriptions | a `Remote-Service` header "a.xml,b.xml" whose two files yield descriptions e1 and e2: both are announced, the entry keeps only [e2], and removing the bundle undiscovers only e2 | the entry accumulates every description announced for the bundle, so removal undiscovers all of them | medium, not executed | BundleTracker.EarlierEntryNeverRemoved | BundleTracker.AddThenRemoveBalanced |

=== FILE: add_abort.dfy ===
/** The abort signal raised when adding a shared object is aborted: a record
    whose timeout is -1 unless the timeout-carrying constructor built it. */
module AddAbort {
  import opened Wrappers

  /** Java's `int` and `long`. */
  newtype Int32 = x: int | -0x8000_0000 <= x < 0x8000_0000
  newtype Int64 = x: int | -0x8000_0000_0000_0000 <= x < 0x8000_0000_0000_0000

  /** The value a `timeout` field holds when no timeout was given. */
  const NoTimeout: Int64 := -1

  /** A cause (a `Throwable`), opaque here. */
  datatype Cause = Cause(description: string)

  /** The exception's state: the message and cause handed to the superclass
      constructor (`None` is null), and the timeout field. */
  datatype AbortSignal = AbortSignal(message: Option<string>, cause: Option<Cause>, timeout: Int64)

  /** The five constructors, as data; any message or cause argument may be
      null. */
  datatype Construction =
    | NoArgs
    | WithMessage(msg: Option<string>)
    | WithMessageAndCause(msg: Option<string>, cause: Option<Cause>)
    | WithTimeout(msg: Option<string>, cause: Option<Cause>, timeout: Int32)
    | WithCause(cause: Option<Cause>)

  /** The constructors that take a message, and those that take a cause. */
  predicate TakesMessage(c: Construction) {
    c.WithMessage? || c.WithMessageAndCause? || c.WithTimeout?
  }

  predicate TakesCause(c: Construction) {
    c.WithMessageAndCause? || c.WithTimeout? || c.WithCause?
  }

  /** What each constructor leaves in the new object: the message and cause
      it was given, null or not, and no message or cause it was not given. */
  function Construct(c: Construction): (a: AbortSignal)
    ensures c.WithTimeout? ==> a.timeout as int == c.timeout as int
    ensures !c.WithTimeout? ==> a.timeout == NoTimeout
    ensures TakesMessage(c) ==> a.message == c.msg
    ensures !TakesMessage(c) ==> a.message == None
    ensures TakesCause(c) ==> a.cause == c.cause
    ensures !TakesCause(c) ==> a.cause == None
  {
    match c
    case NoArgs => AbortSignal(None, None, NoTimeout)
    case WithMessage(m) => AbortSignal(m, None, NoTimeout)
    case WithMessageAndCause(m, cause) => AbortSignal(m, cause, NoTimeout)
    case WithTimeout(m, cause, t) => AbortSignal(m, cause, t as int as Int64)
    case WithCause(cause) => AbortSignal(None, cause, NoTimeout)
  }

  /** The accessor: the stored timeout, read without changing the object. */
  function GetTimeout(a: AbortSignal): Int64
  {
    a.timeout
  }

  /** A timeout other than -1 can only come from the timeout constructor,
      and the value read back is the `int` it was given. */
  lemma TimeoutIdentifiesConstructor(c: Construction)
    ensures GetTimeout(Construct(c)) != NoTimeout ==> c.WithTimeout? && GetTimeout(Construct(c)) as int == c.timeout as int
    ensures c.WithTimeout? ==> -0x8000_0000 <= GetTimeout(Construct(c)) as int < 0x8000_0000
  {
  }
}

=== FILE: bundle_tracker.dfy ===
/** The bundle tracker of the endpoint description locator: endpoint
    descriptions found in a starting bundle's files are announced and
    remembered per bundle, and announced as removed when the bundle goes. */
module BundleTracker {
  import opened Wrappers
  import opened Endpoints
  import opened ManifestPaths

  type BundleId = int

  /** A bundle: its id and its `Remote-Service` manifest header, if any. */
  datatype Bundle = Bundle(id: BundleId, remoteServiceHeader: Option<string>)

  /** The descriptions read from the files `findEntries` yields for a search
      in a bundle: empty when nothing is found, when no reader is available
      or when a file cannot be read. */
  type Finder = (Bundle, Search) -> seq<Endpoint>

  /** `bundleDescriptionMap`. */
  type DescriptionMap = map<BundleId, seq<Endpoint>>

  /** The descriptions one header entry yields. */
  function Found(bundle: Bundle, path: string, find: Finder): seq<Endpoint> {
    match ParsePath(path)
    case None => []
    case Some(search) => find(bundle, search)
  }

  /** What every entry yields, in header order. */
  function FoundAll(bundle: Bundle, paths: seq<string>, find: Finder): seq<Endpoint> {
    if |paths| == 0 then [] else Found(bundle, paths[0], find) + FoundAll(bundle, paths[1..], find)
  }

  /** What the last entry that yielded anything yielded. */
  function LastFound(bundle: Bundle, paths: seq<string>, find: Finder): seq<Endpoint> {
    if |paths| == 0 then []
    else
      var later := LastFound(bundle, paths[1..], find);
      if |later| > 0 then later else Found(bundle, paths[0], find)
  }

  /** The header entries of a bundle, when the locator is still open. */
  function HeaderPaths(contextOpen: bool, bundle: Bundle): seq<string> {
    if !contextOpen || bundle.remoteServiceHeader.None? then []
    else JavaSplit(bundle.remoteServiceHeader.value, HeaderSeparator)
  }

  // ---------------------------------------------------------------------
  // As written: each entry that yields descriptions replaces the bundle's
  // map entry with its own descriptions.
  // ---------------------------------------------------------------------

  /** `handleEndpointDescriptionPath`: every description the entry yields
      is announced as added, and the bundle's map entry is replaced by
      them; an entry that yields nothing changes nothing. */
  function HandleEndpointDescriptionPath(m: DescriptionMap, bundle: Bundle, path: string, find: Finder): (r: (DescriptionMap, seq<Notification>))
    ensures |Found(bundle, path, find)| > 0 ==> r.0 == m[bundle.id := Found(bundle, path, find)]
    ensures |Found(bundle, path, find)| == 0 ==> r == (m, [])
    ensures path == "" ==> r == (m, [])
  {
    var eds := Found(bundle, path, find);
    if |eds| > 0 then (m[bundle.id := eds], DescriptionsNotes(eds, true)) else (m, [])
  }

  /** What one header entry announces: every description it yields, to the
      endpoint listeners and by ADDED events, and nothing else. */
  lemma EntryAnnouncesFound(m: DescriptionMap, bundle: Bundle, path: string, find: Finder)
    ensures var r := HandleEndpointDescriptionPath(m, bundle, path, find);
      && AnnouncedEndpoints(r.1, true) == (set ed | ed in Found(bundle, path, find))
      && AnnouncedEndpoints(r.1, false) == {}
      && AnnouncedEvents(r.1, Added) == (set ed | ed in Found(bundle, path, find))
      && forall t :: t != Added ==> AnnouncedEvents(r.1, t) == {}
  {
    DescriptionsNotesAnnounce(Found(bundle, path, find), true);
  }

  function HandlePaths(m: DescriptionMap, bundle: Bundle, paths: seq<string>, find: Finder): (DescriptionMap, seq<Notification>)
    decreases |paths|
  {
    if |paths| == 0 then (m, [])
    else
      var (m1, notes1) := HandleEndpointDescriptionPath(m, bundle, paths[0], find);
      var (m2, notes2) := HandlePaths(m1, bundle, paths[1..], find);
      (m2, notes1 + notes2)
  }

  /** `handleAddingBundle`. */
  function HandleAddingBundle(contextOpen: bool, m: DescriptionMap, bundle: Bundle, find: Finder): (DescriptionMap, seq<Notification>) {
    HandlePaths(m, bundle, HeaderPaths(contextOpen, bundle), find)
  }

  /** Starting a bundle: nothing happens once the locator is closed or when
      the bundle has no header; otherwise every description its entries
      yield is announced as added, and its map entry holds what the last
      productive entry yielded. */
  lemma HandleAddingBundleAsWritten(contextOpen: bool, m: DescriptionMap, bundle: Bundle, find: Finder)
    ensures !contextOpen || bundle.remoteServiceHeader.None? ==> HandleAddingBundle(contextOpen, m, bundle, find) == (m, [])
    ensures contextOpen && bundle.remoteServiceHeader.Some? ==>
      var paths := JavaSplit(bundle.remoteServiceHeader.value, HeaderSeparator);
      var r := HandleAddingBundle(contextOpen, m, bundle, find);
      && AnnouncedEndpoints(r.1, true) == (set ed | ed in FoundAll(bundle, paths, find))
      && AnnouncedEvents(r.1, Added) == (set ed | ed in FoundAll(bundle, paths, find))
      && r.0 == if |LastFound(bundle, paths, find)| > 0 then m[bundle.id := LastFound(bundle, paths, find)] else m
  {
    var paths := HeaderPaths(contextOpen, bundle);
    HandlePathsAsWritten(m, bundle, paths, find);
    DescriptionsNotesAnnounce(FoundAll(bundle, paths, find), true);
  }

  lemma {:induction false} LastFoundEmptyIff(bundle: Bundle, paths: seq<string>, find: Finder)
    ensures |LastFound(bundle, paths, find)| > 0 <==> |FoundAll(bundle, paths, find)| > 0
  {
    if |paths| > 0 {
      LastFoundEmptyIff(bundle, paths[1..], find);
    }
  }

  /** As written, every description found is announced, but the bundle's
      map entry holds only what the last productive entry found. */
  lemma HandlePathsAsWritten(m: DescriptionMap, bundle: Bundle, paths: seq<string>, find: Finder)
    ensures HandlePaths(m, bundle, paths, find).1 == DescriptionsNotes(FoundAll(bundle, paths, find), true)
    ensures HandlePaths(m, bundle, paths, find).0
         == if |LastFound(bundle, paths, find)| > 0 then m[bundle.id := LastFound(bundle, paths, find)] else m
  {
    HandlePathsAnnouncesAll(m, bundle, paths, find);
    HandlePathsKeepsLast(m, bundle, paths, find);
  }

  lemma {:induction false} HandlePathsAnnouncesAll(m: DescriptionMap, bundle: Bundle, paths: seq<string>, find: Finder)
    ensures HandlePaths(m, bundle, paths, find).1 == DescriptionsNotes(FoundAll(bundle, paths, find), true)
    decreases |paths|
  {
    if |paths| > 0 {
      var eds := Found(bundle, paths[0], find);
      var rest := FoundAll(bundle, paths[1..], find);
      var step := HandleEndpointDescriptionPath(m, bundle, paths[0], find);
      assert HandlePaths(m, bundle, paths, find).1 == step.1 + HandlePaths(step.0, bundle, paths[1..], find).1;
      HandlePathsAnnouncesAll(step.0, bundle, paths[1..], find);
      assert FoundAll(bundle, paths, find) == eds + rest;
      DescriptionsNotesAppend(eds, rest, true);
    }
  }

  lemma {:induction false} HandlePathsKeepsLast(m: DescriptionMap, bundle: Bundle, paths: seq<string>, find: Finder)
    ensures HandlePaths(m, bundle, paths, find).0
         == if |LastFound(bundle, paths, find)| > 0 then m[bundle.id := LastFound(bundle, paths, find)] else m
    decreases |paths|
  {
    if |paths| > 0 {
      var eds := Found(bundle, paths[0], find);
      var step := HandleEndpointDescriptionPath(m, bundle, paths[0], find);
      assert HandlePaths(m, bundle, paths, find).0 == HandlePaths(step.0, bundle, paths[1..], find).0;
      HandlePathsKeepsLast(step.0, bundle, paths[1..], find);
      var later := LastFound(bundle, paths[1..], find);
      assert LastFound(bundle, paths, find) == if |later| > 0 then later else eds;
      ReplaceTwice(m, step.0, bundle.id, eds, later);
    }
  }

  /** Two replacements of one entry leave the later one, or the earlier
      when the later is empty and so not made. */
  lemma ReplaceTwice(m: DescriptionMap, m1: DescriptionMap, id: BundleId, eds: seq<Endpoint>, later: seq<Endpoint>)
    requires m1 == if |eds| > 0 then m[id := eds] else m
    ensures (if |later| > 0 then m1[id := later] else m1)
         == var last := if |later| > 0 then later else eds;
            if |last| > 0 then m[id := last] else m
  {
    if |later| > 0 {
      assert m1[id := later] == m[id := later];
    }
  }

  /** An entry for the bundle is made only when something was found. */
  lemma EntryOnlyWhenFound(m: DescriptionMap, bundle: Bundle, paths: seq<string>, find: Finder)
    ensures HandlePaths(m, bundle, paths, find).0.Keys
         == m.Keys + (if |FoundAll(bundle, paths, find)| > 0 then {bundle.id} else {})
    ensures forall b :: b in m && b != bundle.id ==> HandlePaths(m, bundle, paths, find).0[b] == m[b]
  {
    LastFoundEmptyIff(bundle, paths, find);
    HandlePathsAsWritten(m, bundle, paths, find);
  }

  /** `handleRemovedBundle`: the bundle's entry goes, and exactly its
      descriptions are announced as removed. */
  function HandleRemovedBundle(m: DescriptionMap, id: BundleId): (r: (DescriptionMap, seq<Notification>))
    ensures r.0.Keys == m.Keys - {id}
    ensures forall b :: b in r.0 ==> r.0[b] == m[b]
    ensures id in m ==> AnnouncedEndpoints(r.1, false) == (set ed | ed in m[id])
    ensures AnnouncedEndpoints(r.1, true) == {}
    ensures id in m ==> AnnouncedEvents(r.1, Removed) == (set ed | ed in m[id])
    ensures forall t :: t != Removed ==> AnnouncedEvents(r.1, t) == {}
    ensures id !in m ==> r.1 == []
  {
    if id in m then
      DescriptionsNotesAnnounce(m[id], false);
      (m - {id}, DescriptionsNotes(m[id], false))
    else
      (m, [])
  }

  /** The customizer's `close`: the map is emptied. */
  function Close(m: DescriptionMap): (r: DescriptionMap)
    ensures r.Keys == {}
  {
    map[]
  }

  /** After `close` no bundle is remembered, so stopping any bundle
      announces nothing. */
  lemma CloseForgetsBundles(m: DescriptionMap, id: BundleId)
    ensures HandleRemovedBundle(Close(m), id) == (map[], [])
  {
  }

  /** The leak: with two productive header entries, a description from the
      first is announced when the bundle starts but never announced as
      removed when it stops. */
  lemma EarlierEntryNeverRemoved(m: DescriptionMap, bundle: Bundle, first: string, second: string, e1: Endpoint, e2: Endpoint, find: Finder)
    requires bundle.id !in m
    requires bundle.remoteServiceHeader == Some(first + [HeaderSeparator] + second)
    requires HeaderSeparator !in first && HeaderSeparator !in second
    requires Found(bundle, first, find) == [e1]
    requires Found(bundle, second, find) == [e2]
    requires e1 != e2
    ensures var (m1, added) := HandleAddingBundle(true, m, bundle, find);
            var (m2, removed) := HandleRemovedBundle(m1, bundle.id);
            && e1 in AnnouncedEndpoints(added, true)
            && e1 !in AnnouncedEndpoints(removed, false)
            && e1 in AnnouncedEvents(added, Added)
            && e1 !in AnnouncedEvents(removed, Removed)
  {
    assert second != "";
    SplitTwoEntries(first, second);
    var paths := [first, second];
    assert paths[1..] == [second];
    assert FoundAll(bundle, paths, find) == [e1, e2] by {
      assert FoundAll(bundle, [second], find) == [e2] + FoundAll(bundle, [second][1..], find);
    }
    assert [second][1..] == [];
    assert LastFound(bundle, [second], find) == [e2];
    assert LastFound(bundle, paths, find) == [e2];
    HandlePathsAsWritten(m, bundle, paths, find);
    DescriptionsNotesAnnounce([e1, e2], true);
  }

  // ---------------------------------------------------------------------
  // Corrected: each productive entry adds its descriptions to the bundle's
  // map entry, so the entry holds everything that was announced.
  // ---------------------------------------------------------------------

  function Recorded(m: DescriptionMap, id: BundleId): seq<Endpoint> {
    if id in m then m[id] else []
  }

  function HandleEndpointDescriptionPathAccumulating(m: DescriptionMap, bundle: Bundle, path: string, find: Finder): (DescriptionMap, seq<Notification>) {
    var eds := Found(bundle, path, find);
    if |eds| > 0 then (m[bundle.id := Recorded(m, bundle.id) + eds], DescriptionsNotes(eds, true)) else (m, [])
  }

  function HandlePathsAccumulating(m: DescriptionMap, bundle: Bundle, paths: seq<string>, find: Finder): (DescriptionMap, seq<Notification>)
    decreases |paths|
  {
    if |paths| == 0 then (m, [])
    else
      var (m1, notes1) := HandleEndpointDescriptionPathAccumulating(m, bundle, paths[0], find);
      var (m2, notes2) := HandlePathsAccumulating(m1, bundle, paths[1..], find);
      (m2, notes1 + notes2)
  }

  function HandleAddingBundleAccumulating(contextOpen: bool, m: DescriptionMap, bundle: Bundle, find: Finder): (DescriptionMap, seq<Notification>) {
    HandlePathsAccumulating(m, bundle, HeaderPaths(contextOpen, bundle), find)
  }

  /** Corrected, the bundle's entry grows by everything found, in order. */
  lemma {:induction false} HandlePathsAccumulatingRecordsAll(m: DescriptionMap, bundle: Bundle, paths: seq<string>, find: Finder)
    ensures HandlePathsAccumulating(m, bundle, paths, find).1 == DescriptionsNotes(FoundAll(bundle, paths, find), true)
    ensures HandlePathsAccumulating(m, bundle, paths, find).0
         == if |FoundAll(bundle, paths, find)| > 0
            then m[bundle.id := Recorded(m, bundle.id) + FoundAll(bundle, paths, find)]
            else m
    decreases |paths|
  {
    if |paths| > 0 {
      var eds := Found(bundle, paths[0], find);
      var rest := FoundAll(bundle, paths[1..], find);
      var step := HandleEndpointDescriptionPathAccumulating(m, bundle, paths[0], find);
      var tail := HandlePathsAccumulating(step.0, bundle, paths[1..], find);
      assert HandlePathsAccumulating(m, bundle, paths, find) == (tail.0, step.1 + tail.1);
      HandlePathsAccumulatingRecordsAll(step.0, bundle, paths[1..], find);
      assert FoundAll(bundle, paths, find) == eds + rest;
      DescriptionsNotesAppend(eds, rest, true);
      AccumulateTwice(m, bundle.id, eds, rest);
    }
  }

  /** Recording two runs one after the other records their concatenation. */
  lemma AccumulateTwice(m: DescriptionMap, id: BundleId, eds: seq<Endpoint>, rest: seq<Endpoint>)
    ensures var m1 := if |eds| > 0 then m[id := Recorded(m, id) + eds] else m;
            var m2 := if |rest| > 0 then m1[id := Recorded(m1, id) + rest] else m1;
            m2 == if |eds + rest| > 0 then m[id := Recorded(m, id) + (eds + rest)] else m
  {
    if |eds| > 0 && |rest| > 0 {
      assert Recorded(m, id) + eds + rest == Recorded(m, id) + (eds + rest);
    } else if |eds| > 0 {
      assert eds + rest == eds;
    } else {
      assert eds + rest == rest;
    }
  }

  /** Corrected, starting and then stopping a bundle restores the map and
      announces as removed exactly the descriptions announced as added. */
  lemma AddThenRemoveBalanced(contextOpen: bool, m: DescriptionMap, bundle: Bundle, find: Finder)
    requires bundle.id !in m
    ensures var (m1, added) := HandleAddingBundleAccumulating(contextOpen, m, bundle, find);
            var (m2, removed) := HandleRemovedBundle(m1, bundle.id);
            && m2 == m
            && AnnouncedEndpoints(removed, false) == AnnouncedEndpoints(added, true)
            && AnnouncedEvents(removed, Removed) == AnnouncedEvents(added, Added)
  {
    var paths := HeaderPaths(contextOpen, bundle);
    var all := FoundAll(bundle, paths, find);
    HandlePathsAccumulatingRecordsAll(m, bundle, paths, find);
    DescriptionsNotesAnnounce(all, true);
    var (m1, added) := HandleAddingBundleAccumulating(contextOpen, m, bundle, find);
    if |all| > 0 {
      assert m1[bundle.id] == all;
      assert m1 - {bundle.id} == m;
    } else {
      assert all == [];
      assert added == [];
      assert m - {bundle.id} == m;
    }
  }
}

=== FILE: container_factory.dfy ===
/** The name-keyed registry of shared-object container descriptions and the
    guard checks performed before a container is instantiated from one. */
module ContainerFactory {
  import opened Wrappers

  /** An instantiator object; what it builds is opaque here. */
  datatype Instantiator = Instantiator(kind: string)

  /** What `getInstantiator()` gives back for a description: an instance,
      `null`, or an exception raised while loading it reflectively. */
  datatype InstantiatorLookup =
    | Loaded(instantiator: Option<Instantiator>)
    | LoadFailed(cause: string)

  datatype Description = Description(name: string, instantiator: InstantiatorLookup)

  /** The factory's table: description name -> description. */
  type Registry = map<string, Description>

  /** Every entry is stored under its own name. */
  ghost predicate WellFormed(reg: Registry) {
    forall n :: n in reg ==> reg[n].name == n
  }

  /** The reasons `SharedObjectContainerInstantiationException` is thrown. */
  datatype FactoryError =
    | NullDescription
    | NotFound(name: Option<string>)
    | InstantiationFailed(cause: string)
    | NullInstantiator(descriptionName: string)

  /** The call the factory hands to the registered instantiator: the
      instantiator of the REGISTERED description, applied to the description
      the caller passed, the resolved argument classes and the arguments. */
  datatype ContainerRequest = ContainerRequest(
    instantiator: Instantiator,
    description: Description,
    argClasses: seq<string>,
    args: seq<string>)

  /** Registers `d` under its name; the result carries the new table and the
      description that was previously registered under that name. */
  function AddDescription(reg: Registry, d: Option<Description>): (r: (Registry, Option<Description>))
    ensures d.None? ==> r == (reg, None)
    ensures d.Some? ==> r.0.Keys == reg.Keys + {d.value.name}
    ensures d.Some? ==> r.0[d.value.name] == d.value
    ensures d.Some? ==> forall n :: n in reg && n != d.value.name ==> n in r.0 && r.0[n] == reg[n]
    ensures d.Some? ==> r.1 == (if d.value.name in reg then Some(reg[d.value.name]) else None)
  {
    match d
    case None => (reg, None)
    case Some(desc) =>
      var previous := if desc.name in reg then Some(reg[desc.name]) else None;
      (reg[desc.name := desc], previous)
  }

  /** True iff a description with the same name is registered: exactly
      when the lookup by that name finds something. */
  function ContainsDescription(reg: Registry, d: Option<Description>): (b: bool)
    ensures b <==> d.Some? && GetDescription(reg, Some(d.value.name)).Some?
  {
    d.Some? && d.value.name in reg
  }

  /** The lookup by name that returns `null` for a null or unknown name. */
  function GetDescription(reg: Registry, name: Option<string>): (r: Option<Description>)
    ensures r.Some? <==> name.Some? && name.value in reg
    ensures r.Some? ==> r.value == reg[name.value]
  {
    match name
    case None => None
    case Some(n) => if n in reg then Some(reg[n]) else None
  }

  /** The lookup by name that throws when nothing is registered. */
  function GetDescriptionByName(reg: Registry, name: Option<string>): (r: Result<Description, FactoryError>)
    ensures r.Success? <==> name.Some? && name.value in reg
    ensures r.Success? ==> r.value == reg[name.value]
    ensures r.Failure? ==> r.error == NotFound(name)
  {
    match GetDescription(reg, name)
    case Some(d) => Success(d)
    case None => Failure(NotFound(name))
  }

  /** Unregisters the description with `d`'s name and returns what was there. */
  function RemoveDescription(reg: Registry, d: Option<Description>): (r: (Registry, Option<Description>))
    ensures d.None? ==> r == (reg, None)
    ensures d.Some? ==> r.0.Keys == reg.Keys - {d.value.name}
    ensures d.Some? ==> forall n :: n in r.0 ==> r.0[n] == reg[n]
    ensures d.Some? ==> r.1 == (if d.value.name in reg then Some(reg[d.value.name]) else None)
  {
    match d
    case None => (reg, None)
    case Some(desc) =>
      var previous := if desc.name in reg then Some(reg[desc.name]) else None;
      (reg - {desc.name}, previous)
  }

  /** A fresh list of the registered descriptions, one per name, in the
      table's (unspecified) enumeration order. */
  method GetDescriptions(reg: Registry) returns (r: seq<Description>)
    requires WellFormed(reg)
    ensures |r| == |reg|
    ensures forall d :: d in r <==> d in reg.Values
    ensures forall i, j :: 0 <= i < j < |r| ==> r[i].name != r[j].name
  {
    r := [];
    var pending := reg.Keys;
    while pending != {}
      invariant pending <= reg.Keys
      invariant |r| + |pending| == |reg.Keys|
      invariant forall i :: 0 <= i < |r| ==> r[i].name in reg && r[i].name !in pending && reg[r[i].name] == r[i]
      invariant forall n :: n in reg && n !in pending ==> reg[n] in r
      invariant forall i, j :: 0 <= i < j < |r| ==> r[i].name != r[j].name
      decreases |pending|
    {
      var n :| n in pending;
      r := r + [reg[n]];
      pending := pending - {n};
    }
    assert |reg.Keys| == |reg|;
  }

  /** The checks `makeSharedObjectContainer` performs before the instantiator
      is asked to build anything. `resolveArgClasses` stands for the
      reflective resolution of the argument types, `None` when it throws. */
  function MakeSharedObjectContainer(
    reg: Registry,
    desc: Option<Description>,
    resolveArgClasses: Option<seq<string>>,
    args: seq<string>): (r: Result<ContainerRequest, FactoryError>)
    ensures desc.None? ==> r == Failure(NullDescription)
    ensures desc.Some? && desc.value.name !in reg ==> r == Failure(NotFound(Some(desc.value.name)))
    ensures r.Success? ==>
      && desc.Some? && desc.value.name in reg
      && reg[desc.value.name].instantiator == Loaded(Some(r.value.instantiator))
      && resolveArgClasses == Some(r.value.argClasses)
      && r.value.description == desc.value
      && r.value.args == args
    ensures (&& desc.Some? && desc.value.name in reg
             && reg[desc.value.name].instantiator == Loaded(None)
             && resolveArgClasses.Some?) ==> r == Failure(NullInstantiator(reg[desc.value.name].name))
  {
    match desc
    case None => Failure(NullDescription)
    case Some(d) =>
      match GetDescription(reg, Some(d.name))
      case None => Failure(NotFound(Some(d.name)))
      case Some(cd) =>
        match cd.instantiator
        case LoadFailed(cause) => Failure(InstantiationFailed(cause))
        case Loaded(inst) =>
          match resolveArgClasses
          case None => Failure(InstantiationFailed("argument classes could not be resolved"))
          case Some(classes) =>
            match inst
            case None => Failure(NullInstantiator(cd.name))
            case Some(i) => Success(ContainerRequest(i, d, classes, args))
  }

  /** The by-name overloads: look the name up, then make the container from
      the registered description. */
  function MakeSharedObjectContainerByName(
    reg: Registry,
    name: Option<string>,
    resolveArgClasses: Option<seq<string>>,
    args: seq<string>): (r: Result<ContainerRequest, FactoryError>)
    requires WellFormed(reg)
    ensures name.None? ==> r == Failure(NotFound(None))
    ensures name.Some? && name.value !in reg ==> r == Failure(NotFound(name))
    ensures r.Success? ==> name.Some? && name.value in reg && r.value.description == reg[name.value]
  {
    match GetDescriptionByName(reg, name)
    case Failure(e) => Failure(e)
    case Success(d) => MakeSharedObjectContainer(reg, Some(d), resolveArgClasses, args)
  }

  /** Adding and removing keep every entry under its own name. */
  lemma WellFormedPreserved(reg: Registry, d: Option<Description>)
    requires WellFormed(reg)
    ensures WellFormed(AddDescription(reg, d).0)
    ensures WellFormed(RemoveDescription(reg, d).0)
  {
  }

  /** Registering twice under one name: the second registration returns the
      first description, and afterwards exactly the second is registered. */
  lemma LastWriteWins(reg: Registry, a: Description, b: Description)
    requires a.name == b.name
    ensures var (reg1, _) := AddDescription(reg, Some(a));
            var (reg2, previous) := AddDescription(reg1, Some(b));
            && previous == Some(a)
            && reg2.Keys == reg.Keys + {a.name}
            && GetDescriptionByName(reg2, Some(a.name)) == Success(b)
  {
  }

  /** Removing right after adding restores the table when the name was new,
      and otherwise only drops that name. */
  lemma RemoveUndoesAdd(reg: Registry, d: Description)
    ensures RemoveDescription(AddDescription(reg, Some(d)).0, Some(d)) == (reg - {d.name}, Some(d))
    ensures d.name !in reg ==> RemoveDescription(AddDescription(reg, Some(d)).0, Some(d)).0 == reg
  {
    assert reg[d.name := d] - {d.name} == reg - {d.name};
    if d.name !in reg {
      assert reg - {d.name} == reg;
    }
  }

  /** Re-adding the description just removed restores the table. */
  lemma AddUndoesRemove(reg: Registry, d: Description)
    requires d.name in reg && reg[d.name] == d
    ensures AddDescription(RemoveDescription(reg, Some(d)).0, Some(d)) == (reg, None)
  {
    assert (reg - {d.name})[d.name := d] == reg;
  }

  /** After a removal nothing is registered under that name, so the strict
      lookup and the container factory both report it as not found. */
  lemma RemovedNameNotFound(reg: Registry, d: Description, resolve: Option<seq<string>>, args: seq<string>)
    ensures var (reg1, _) := RemoveDescription(reg, Some(d));
            && !ContainsDescription(reg1, Some(d))
            && GetDescriptionByName(reg1, Some(d.name)) == Failure(NotFound(Some(d.name)))
            && MakeSharedObjectContainer(reg1, Some(d), resolve, args) == Failure(NotFound(Some(d.name)))
  {
  }

  /** The container is built with the instantiator registered under the
      description's name, even when the caller's description object carries
      a different one. */
  lemma RegisteredInstantiatorIsUsed(reg: Registry, registered: Description, passed: Description, i: Instantiator, classes: seq<string>, args: seq<string>)
    requires registered.name == passed.name
    requires registered.instantiator == Loaded(Some(i))
    ensures var reg1 := AddDescription(reg, Some(registered)).0;
            MakeSharedObjectContainer(reg1, Some(passed), Some(classes), args)
            == Success(ContainerRequest(i, passed, classes, args))
  {
  }
}

=== FILE: endpoint_filters.dfy ===
/** Choosing, for an endpoint description, the endpoint listeners whose scope
    filters match it, together with the filter that matched. */
module EndpointFilters {
  import opened Wrappers
  import opened Endpoints

  /** What `EndpointDescription.matches(filter)` does: match, not match, or
      throw `IllegalArgumentException` for a filter that does not parse. */
  datatype MatchOutcome = Matches | NoMatch | InvalidFilter

  /** LDAP filter matching, supplied from outside the model. */
  type Matcher = (Endpoint, string) -> MatchOutcome

  /** A filter `isMatch` would return: present, non-empty and matching. */
  predicate Eligible(ed: Endpoint, filter: Option<string>, matches: Matcher) {
    filter.Some? && filter.value != "" && matches(ed, filter.value) == Matches
  }

  /** `f` is the first eligible filter of the list. */
  ghost predicate FirstEligible(ed: Endpoint, filters: seq<Option<string>>, matches: Matcher, f: string) {
    exists i :: 0 <= i < |filters| && filters[i] == Some(f) && Eligible(ed, filters[i], matches)
      && forall j :: 0 <= j < i ==> !Eligible(ed, filters[j], matches)
  }

  /** `isMatch`: the first filter in list order that is non-null, non-empty
      and matches; null, empty, non-matching and invalid filters are skipped. */
  function IsMatch(ed: Endpoint, filters: seq<Option<string>>, matches: Matcher): (r: Option<string>)
    ensures r.None? <==> forall i :: 0 <= i < |filters| ==> !Eligible(ed, filters[i], matches)
    ensures r.Some? ==> r.value != "" && Some(r.value) in filters && FirstEligible(ed, filters, matches, r.value)
  {
    if |filters| == 0 then None
    else if Eligible(ed, filters[0], matches) then filters[0]
    else
      var r := IsMatch(ed, filters[1..], matches);
      assert r.Some? ==> FirstEligible(ed, filters, matches, r.value) by {
        if r.Some? {
          var i :| 0 <= i < |filters[1..]| && filters[1..][i] == Some(r.value) && Eligible(ed, filters[1..][i], matches)
            && forall j :: 0 <= j < i ==> !Eligible(ed, filters[1..][j], matches);
          assert filters[i + 1] == Some(r.value);
          forall j | 0 <= j < i + 1
            ensures !Eligible(ed, filters[j], matches)
          {
            if j > 0 { assert filters[j] == filters[1..][j - 1]; }
          }
        }
      }
      assert r.None? ==> forall i :: 0 <= i < |filters| ==> !Eligible(ed, filters[i], matches) by {
        if r.None? {
          forall i | 0 <= i < |filters|
            ensures !Eligible(ed, filters[i], matches)
          {
            if i > 0 { assert filters[i] == filters[1..][i - 1]; }
          }
        }
      }
      r
  }

  /** There is only one first eligible filter. */
  lemma FirstEligibleUnique(ed: Endpoint, filters: seq<Option<string>>, matches: Matcher, f: string, g: string)
    requires FirstEligible(ed, filters, matches, f)
    requires FirstEligible(ed, filters, matches, g)
    ensures f == g
  {
    var i :| 0 <= i < |filters| && filters[i] == Some(f) && Eligible(ed, filters[i], matches)
      && forall j :: 0 <= j < i ==> !Eligible(ed, filters[j], matches);
    var k :| 0 <= k < |filters| && filters[k] == Some(g) && Eligible(ed, filters[k], matches)
      && forall j :: 0 <= j < k ==> !Eligible(ed, filters[j], matches);
    assert !(i < k) && !(k < i);
  }

  /** Putting skippable filters in front of a list does not change the
      choice. */
  lemma {:induction false} SkippedPrefixIrrelevant(ed: Endpoint, skipped: seq<Option<string>>, filters: seq<Option<string>>, matches: Matcher)
    requires forall i :: 0 <= i < |skipped| ==> !Eligible(ed, skipped[i], matches)
    ensures IsMatch(ed, skipped + filters, matches) == IsMatch(ed, filters, matches)
    decreases |skipped|
  {
    if |skipped| > 0 {
      assert (skipped + filters)[0] == skipped[0];
      assert (skipped + filters)[1..] == skipped[1..] + filters;
      SkippedPrefixIrrelevant(ed, skipped[1..], filters, matches);
    } else {
      assert skipped + filters == filters;
    }
  }

  /** An endpoint listener service, as seen through its reference: the
      listener object (null when the service is gone) and its scope filters. */
  type ListenerId = nat
  datatype ListenerRef = ListenerRef(service: Option<ListenerId>, scope: seq<Option<string>>)

  /** `EndpointListenerHolder`: a listener, the description and the filter
      that matched. */
  datatype Holder = Holder(listener: ListenerId, description: Endpoint, matchingFilter: string)

  /** The holder a single reference contributes, if any. */
  function HolderFor(ref: ListenerRef, ed: Endpoint, matches: Matcher): Option<Holder> {
    match ref.service
    case None => None
    case Some(listener) =>
      if |ref.scope| > 0 then
        match IsMatch(ed, ref.scope, matches)
        case None => None
        case Some(f) => Some(Holder(listener, ed, f))
      else None
  }

  /** The holders of a non-null reference array, in reference order. */
  function MatchingHolders(refs: seq<ListenerRef>, ed: Endpoint, matches: Matcher): (r: seq<Holder>)
    ensures |r| <= |refs|
  {
    if |refs| == 0 then []
    else
      var rest := MatchingHolders(refs[1..], ed, matches);
      match HolderFor(refs[0], ed, matches)
      case None => rest
      case Some(h) => [h] + rest
  }

  /** Scanning two runs of references one after the other gives the holders
      of the first run followed by those of the second. */
  lemma {:induction false} MatchingHoldersAppend(a: seq<ListenerRef>, b: seq<ListenerRef>, ed: Endpoint, matches: Matcher)
    ensures MatchingHolders(a + b, ed, matches) == MatchingHolders(a, ed, matches) + MatchingHolders(b, ed, matches)
    decreases |a|
  {
    if |a| > 0 {
      assert (a + b)[1..] == a[1..] + b;
      assert (a + b)[0] == a[0];
      MatchingHoldersAppend(a[1..], b, ed, matches);
    } else {
      assert a + b == b;
    }
  }

  /** One reference contributes exactly its own holder, once, or nothing. */
  lemma MatchingHoldersSingle(ref: ListenerRef, ed: Endpoint, matches: Matcher)
    ensures MatchingHolders([ref], ed, matches)
         == if HolderFor(ref, ed, matches).Some? then [HolderFor(ref, ed, matches).value] else []
  {
    assert [ref][1..] == [];
  }

  /** Every holder is the one some reference contributes. */
  lemma {:induction false} MatchingHoldersSound(refs: seq<ListenerRef>, ed: Endpoint, matches: Matcher)
    ensures forall h :: h in MatchingHolders(refs, ed, matches) ==>
      exists k :: 0 <= k < |refs| && HolderFor(refs[k], ed, matches) == Some(h)
  {
    if |refs| > 0 {
      MatchingHoldersSound(refs[1..], ed, matches);
      forall h | h in MatchingHolders(refs, ed, matches)
        ensures exists k :: 0 <= k < |refs| && HolderFor(refs[k], ed, matches) == Some(h)
      {
        if HolderFor(refs[0], ed, matches) != Some(h) {
          var k :| 0 <= k < |refs[1..]| && HolderFor(refs[1..][k], ed, matches) == Some(h);
          assert refs[k + 1] == refs[1..][k];
        }
      }
    }
  }

  /** Every reference that contributes a holder has it in the result. */
  lemma {:induction false} MatchingHoldersComplete(refs: seq<ListenerRef>, ed: Endpoint, matches: Matcher)
    ensures forall k :: 0 <= k < |refs| && HolderFor(refs[k], ed, matches).Some? ==>
      HolderFor(refs[k], ed, matches).value in MatchingHolders(refs, ed, matches)
  {
    if |refs| > 0 {
      MatchingHoldersComplete(refs[1..], ed, matches);
      forall k | 0 <= k < |refs| && HolderFor(refs[k], ed, matches).Some?
        ensures HolderFor(refs[k], ed, matches).value in MatchingHolders(refs, ed, matches)
      {
        if k > 0 {
          assert refs[k] == refs[1..][k - 1];
        }
      }
    }
  }

  /** `getMatchingEndpointListenerHolders(refs, ed)`: null for a null array. */
  function GetMatchingEndpointListenerHolders(refs: Option<seq<ListenerRef>>, ed: Endpoint, matches: Matcher): (r: Option<seq<Holder>>)
    ensures r.None? <==> refs.None?
    ensures r.Some? ==> forall h :: h in r.value ==>
      exists k :: 0 <= k < |refs.value| && refs.value[k].service == Some(h.listener)
        && h.description == ed && IsMatch(ed, refs.value[k].scope, matches) == Some(h.matchingFilter)
    ensures r.Some? ==> forall k ::
      (0 <= k < |refs.value| && refs.value[k].service.Some? && IsMatch(ed, refs.value[k].scope, matches).Some?) ==>
      Holder(refs.value[k].service.value, ed, IsMatch(ed, refs.value[k].scope, matches).value) in r.value
  {
    match refs
    case None => None
    case Some(rs) =>
      HoldersSound(rs, ed, matches);
      HoldersComplete(rs, ed, matches);
      Some(MatchingHolders(rs, ed, matches))
  }

  /** The holder list is built reference by reference, in array order:
      the holders of a concatenation are those of its parts, in order, and
      a single reference yields its holder once or not at all. */
  lemma ListenerHoldersInOrder(a: seq<ListenerRef>, b: seq<ListenerRef>, ref: ListenerRef, ed: Endpoint, matches: Matcher)
    ensures GetMatchingEndpointListenerHolders(Some(a + b), ed, matches).value
         == GetMatchingEndpointListenerHolders(Some(a), ed, matches).value
          + GetMatchingEndpointListenerHolders(Some(b), ed, matches).value
    ensures GetMatchingEndpointListenerHolders(Some([ref]), ed, matches).value
         == if ref.service.Some? && |ref.scope| > 0 && IsMatch(ed, ref.scope, matches).Some?
            then [Holder(ref.service.value, ed, IsMatch(ed, ref.scope, matches).value)]
            else []
  {
    MatchingHoldersAppend(a, b, ed, matches);
    MatchingHoldersSingle(ref, ed, matches);
  }

  /** Every holder comes from a present listener whose scope matched. */
  lemma HoldersSound(refs: seq<ListenerRef>, ed: Endpoint, matches: Matcher)
    ensures forall h :: h in MatchingHolders(refs, ed, matches) ==>
      exists k :: 0 <= k < |refs| && refs[k].service == Some(h.listener)
        && h.description == ed && IsMatch(ed, refs[k].scope, matches) == Some(h.matchingFilter)
  {
    MatchingHoldersSound(refs, ed, matches);
    forall h | h in MatchingHolders(refs, ed, matches)
      ensures exists k :: (&& 0 <= k < |refs| && refs[k].service == Some(h.listener)
                           && h.description == ed && IsMatch(ed, refs[k].scope, matches) == Some(h.matchingFilter))
    {
      var k :| 0 <= k < |refs| && HolderFor(refs[k], ed, matches) == Some(h);
      assert refs[k].service == Some(h.listener);
    }
  }

  /** Every present listener whose scope matched has its holder. */
  lemma HoldersComplete(refs: seq<ListenerRef>, ed: Endpoint, matches: Matcher)
    ensures forall k ::
      (0 <= k < |refs| && refs[k].service.Some? && IsMatch(ed, refs[k].scope, matches).Some?) ==>
      Holder(refs[k].service.value, ed, IsMatch(ed, refs[k].scope, matches).value) in MatchingHolders(refs, ed, matches)
  {
    MatchingHoldersComplete(refs, ed, matches);
    forall k | 0 <= k < |refs| && refs[k].service.Some? && IsMatch(ed, refs[k].scope, matches).Some?
      ensures Holder(refs[k].service.value, ed, IsMatch(ed, refs[k].scope, matches).value) in MatchingHolders(refs, ed, matches)
    {
      assert HolderFor(refs[k], ed, matches).Some?;
    }
  }

  /** `EndpointEventListenerHolder`: a holder that also carries the event
      type it is for. */
  datatype EventHolder = EventHolder(listener: ListenerId, description: Endpoint, matchingFilter: string, eventType: int)

  function WithType(h: Holder, eventType: int): EventHolder {
    EventHolder(h.listener, h.description, h.matchingFilter, eventType)
  }

  /** `getMatchingEndpointEventListenerHolders(refs, ed, type)`: the same
      scan over endpoint event listeners, each holder tagged with `type`. */
  function GetMatchingEndpointEventListenerHolders(refs: Option<seq<ListenerRef>>, ed: Endpoint, eventType: int, matches: Matcher): (r: Option<seq<EventHolder>>)
    ensures r.None? <==> refs.None?
    ensures r.Some? ==> forall e :: e in r.value ==>
      && e.eventType == eventType
      && Holder(e.listener, e.description, e.matchingFilter) in GetMatchingEndpointListenerHolders(refs, ed, matches).value
    ensures r.Some? ==> forall h :: h in GetMatchingEndpointListenerHolders(refs, ed, matches).value ==>
      WithType(h, eventType) in r.value
    ensures r.Some? ==>
      var hs := GetMatchingEndpointListenerHolders(refs, ed, matches).value;
      |r.value| == |hs| && forall i :: 0 <= i < |hs| ==> r.value[i] == WithType(hs[i], eventType)
  {
    match GetMatchingEndpointListenerHolders(refs, ed, matches)
    case None => None
    case Some(hs) => Some(Tagged(hs, eventType))
  }

  /** The holders, in order, each tagged with the event type. */
  function Tagged(hs: seq<Holder>, eventType: int): (es: seq<EventHolder>)
    ensures forall e :: e in es ==> e.eventType == eventType && Holder(e.listener, e.description, e.matchingFilter) in hs
    ensures forall h :: h in hs ==> WithType(h, eventType) in es
    ensures |es| == |hs|
    ensures forall i :: 0 <= i < |hs| ==> es[i] == WithType(hs[i], eventType)
  {
    if |hs| == 0 then [] else [WithType(hs[0], eventType)] + Tagged(hs[1..], eventType)
  }

  /** A listener with no scope, or with only null and empty filters, gets no
      holder, whatever the matcher says. */
  lemma {:induction false} UnscopedListenerIgnored(ref: ListenerRef, ed: Endpoint, matches: Matcher)
    requires forall i :: 0 <= i < |ref.scope| ==> ref.scope[i].None? || ref.scope[i] == Some("")
    ensures MatchingHolders([ref], ed, matches) == []
  {
    assert [ref][1..] == [];
    assert MatchingHolders([ref][1..], ed, matches) == [];
  }
}

=== FILE: endpoints.dfy ===
/** Endpoint descriptions, endpoint event types, and the notifications the
    locator queues for its listeners. */
module Endpoints {
  import opened Wrappers

  /** The type constants of `EndpointEvent` in the OSGi Remote Service Admin
      specification. */
  const Added: int := 1
  const Removed: int := 2
  const Modified: int := 4
  const ModifiedEndmatch: int := 8

  /** An endpoint description. `isEcf` marks ECF's own subclass, whose
      `timestamp` the update check reads; `modified` is the value of the
      standard endpoint-modified property; the remaining properties are
      only consulted by filter matching. */
  datatype Endpoint = Endpoint(
    id: string,
    isEcf: bool,
    timestamp: Option<int>,
    modified: Option<int>,
    properties: map<string, string>)

  /** A notification queued for asynchronous dispatch: an `EndpointEvent` for
      the endpoint event listeners, or an added/removed call for the endpoint
      listeners. */
  datatype Notification =
    | EventNotification(eventType: int, endpoint: Endpoint)
    | ListenerNotification(discovered: bool, endpoint: Endpoint)

  /** `getEndpointEventTypeAsString`. */
  function EventTypeName(eventType: int): (name: string)
    ensures name == "added" <==> eventType == Added
    ensures name == "modified" <==> eventType == Modified
    ensures name == "modified endmatch" <==> eventType == ModifiedEndmatch
    ensures name == "removed" <==> eventType == Removed
    ensures name == "unknown" <==> eventType !in {Added, Modified, ModifiedEndmatch, Removed}
  {
    if eventType == Added then "added"
    else if eventType == Modified then "modified"
    else if eventType == ModifiedEndmatch then "modified endmatch"
    else if eventType == Removed then "removed"
    else "unknown"
  }

  /** The event type announcing a discovery or an undiscovery. */
  function AnnouncingType(discovered: bool): int {
    if discovered then Added else Removed
  }

  /** `handleEndpointDescription`: the description is announced to the
      endpoint event listeners by one event of the announcing type, and
      then to the endpoint listeners by one call with the same flag. */
  function DescriptionNotes(ed: Endpoint, discovered: bool): (notes: seq<Notification>)
    ensures |notes| == 2
    ensures AnnouncedEndpoints(notes, discovered) == {ed}
    ensures AnnouncedEndpoints(notes, !discovered) == {}
    ensures AnnouncedEvents(notes, AnnouncingType(discovered)) == {ed}
    ensures forall t :: t != AnnouncingType(discovered) ==> AnnouncedEvents(notes, t) == {}
    ensures forall i, j :: 0 <= i < j < |notes| ==> !(notes[i].ListenerNotification? && notes[j].EventNotification?)
  {
    var notes := [EventNotification(AnnouncingType(discovered), ed), ListenerNotification(discovered, ed)];
    assert AnnouncedEndpoints(notes, discovered) == {ed} by {
      assert notes[1] in notes;
    }
    assert AnnouncedEvents(notes, AnnouncingType(discovered)) == {ed} by {
      assert notes[0] in notes;
    }
    notes
  }

  /** `handleEndpointDescription` applied to each description in turn. */
  function DescriptionsNotes(eds: seq<Endpoint>, discovered: bool): (notes: seq<Notification>)
    ensures |notes| == 2 * |eds|
  {
    if |eds| == 0 then [] else DescriptionNotes(eds[0], discovered) + DescriptionsNotes(eds[1..], discovered)
  }

  /** The descriptions announced by a list of notifications. */
  function AnnouncedEndpoints(notes: seq<Notification>, discovered: bool): set<Endpoint> {
    set n | n in notes && n.ListenerNotification? && n.discovered == discovered :: n.endpoint
  }

  /** The descriptions announced by events of type `eventType`. */
  function AnnouncedEvents(notes: seq<Notification>, eventType: int): set<Endpoint> {
    set n | n in notes && n.EventNotification? && n.eventType == eventType :: n.endpoint
  }

  /** Handling descriptions one after another announces exactly them. */
  lemma {:induction false} DescriptionsNotesAnnounce(eds: seq<Endpoint>, discovered: bool)
    ensures AnnouncedEndpoints(DescriptionsNotes(eds, discovered), discovered) == set ed | ed in eds
    ensures AnnouncedEndpoints(DescriptionsNotes(eds, discovered), !discovered) == {}
    ensures AnnouncedEvents(DescriptionsNotes(eds, discovered), AnnouncingType(discovered)) == set ed | ed in eds
    ensures forall t :: t != AnnouncingType(discovered) ==> AnnouncedEvents(DescriptionsNotes(eds, discovered), t) == {}
  {
    DescriptionsNotesEvents(eds, discovered);
    if |eds| > 0 {
      DescriptionsNotesAnnounce(eds[1..], discovered);
      var head := DescriptionNotes(eds[0], discovered);
      var tail := DescriptionsNotes(eds[1..], discovered);
      assert DescriptionsNotes(eds, discovered) == head + tail;
      assert AnnouncedEndpoints(head + tail, discovered)
          == AnnouncedEndpoints(head, discovered) + AnnouncedEndpoints(tail, discovered);
      assert AnnouncedEndpoints(head + tail, !discovered)
          == AnnouncedEndpoints(head, !discovered) + AnnouncedEndpoints(tail, !discovered);
      assert (set ed | ed in eds) == {eds[0]} + set ed | ed in eds[1..];
    }
  }

  /** The event side of the same: a run of descriptions is announced by
      events of the announcing type only, one description each. */
  lemma {:induction false} DescriptionsNotesEvents(eds: seq<Endpoint>, discovered: bool)
    ensures AnnouncedEvents(DescriptionsNotes(eds, discovered), AnnouncingType(discovered)) == set ed | ed in eds
    ensures forall t :: t != AnnouncingType(discovered) ==> AnnouncedEvents(DescriptionsNotes(eds, discovered), t) == {}
  {
    if |eds| > 0 {
      DescriptionsNotesEvents(eds[1..], discovered);
      var head := DescriptionNotes(eds[0], discovered);
      var tail := DescriptionsNotes(eds[1..], discovered);
      assert DescriptionsNotes(eds, discovered) == head + tail;
      forall t
        ensures AnnouncedEvents(head + tail, t) == AnnouncedEvents(head, t) + AnnouncedEvents(tail, t)
      {
      }
      assert (set ed | ed in eds) == {eds[0]} + set ed | ed in eds[1..];
    }
  }

  /** Handling two runs of descriptions is handling their concatenation. */
  lemma {:induction false} DescriptionsNotesAppend(a: seq<Endpoint>, b: seq<Endpoint>, discovered: bool)
    ensures DescriptionsNotes(a + b, discovered) == DescriptionsNotes(a, discovered) + DescriptionsNotes(b, discovered)
  {
    if |a| > 0 {
      assert (a + b)[1..] == a[1..] + b;
      DescriptionsNotesAppend(a[1..], b, discovered);
    } else {
      assert a + b == b;
    }
  }

  /** The four event types have four distinct names. */
  lemma EventTypeNamesDistinct(t1: int, t2: int)
    requires t1 in {Added, Modified, ModifiedEndmatch, Removed}
    requires t1 != t2
    ensures EventTypeName(t1) != EventTypeName(t2)
  {
  }
}

=== FILE: locator_listener.dfy ===
/** The locator service listener: the bookkeeping, per discovery locator,
    of which endpoint descriptions were discovered through which discovery
    service IDs, and the notifications discovery events cause. */
module LocatorListener {
  import opened Wrappers
  import opened Endpoints

  /** A discovery service ID: where the service is, and the service types
      it advertises. */
  datatype ServiceId = ServiceId(location: string, serviceTypes: seq<string>, name: string)

  /** A discovery event's service: its ID, and the endpoint description the
      discovered-endpoint factory builds from it (`None` when the factory,
      what it returns or the description inside is null, or it throws). */
  datatype ServiceInfo = ServiceInfo(serviceId: ServiceId, endpoint: Option<Endpoint>)

  /** One entry of `edServiceIDMap`: the key object and its service IDs. */
  datatype Entry = Entry(key: Endpoint, serviceIds: set<ServiceId>)

  /** `edServiceIDMap`, a hash map whose keys are endpoint descriptions.
      Descriptions are equal exactly when their ids are, so the map is
      indexed by id; a `put` under an id already present replaces the
      service IDs and keeps the key object that was there. */
  type EdMap = map<string, Entry>

  /** A listener is open while it still has its locator. */
  datatype Listener = Listener(open: bool, edServiceIds: EdMap)

  /** Every entry sits under its key's id. */
  ghost predicate WellKeyed(m: EdMap) {
    forall id :: id in m ==> m[id].key.id == id
  }

  /** `order` lists every id once: one iteration over the key set. */
  ghost predicate Enumerates(order: seq<string>, ids: set<string>) {
    && (forall i, j :: 0 <= i < j < |order| ==> order[i] != order[j])
    && (forall id :: id in ids <==> id in order)
  }

  ghost predicate Valid(m: EdMap, order: seq<string>) {
    WellKeyed(m) && Enumerates(order, m.Keys)
  }

  /** The key objects in iteration order. */
  function KeyObjects(m: EdMap, order: seq<string>): (keys: seq<Endpoint>)
    requires forall i :: 0 <= i < |order| ==> order[i] in m
    ensures |keys| == |order|
    ensures forall i :: 0 <= i < |order| ==> keys[i] == m[order[i]].key
  {
    if |order| == 0 then [] else [m[order[0]].key] + KeyObjects(m, order[1..])
  }

  predicate HoldsLocation(ids: set<ServiceId>, location: string) {
    exists s :: s in ids && s.location == location
  }

  /** Some entry already holds a service ID at `location`. */
  ghost predicate LocationKnown(m: EdMap, location: string) {
    exists id, s :: id in m && s in m[id].serviceIds && s.location == location
  }

  /** The bookkeeping invariant: every entry holds at least one service ID,
      and no two service IDs anywhere share a location. */
  ghost predicate Consistent(m: EdMap) {
    && (forall id :: id in m ==> m[id].serviceIds != {})
    && (forall id, s :: id in m && s in m[id].serviceIds ==> OnlyAt(m, id, s))
  }

  /** `s`, held by the entry `id`, is the only service ID at its location. */
  ghost predicate OnlyAt(m: EdMap, id: string, s: ServiceId) {
    forall id2, s2 :: id2 in m && s2 in m[id2].serviceIds && s2.location == s.location ==> id2 == id && s2 == s
  }

  /** `findEDFromServiceID`: the key of the first entry, in iteration order,
      holding a service ID at the same location. */
  function FindEndpoint(m: EdMap, order: seq<string>, sid: ServiceId): (r: Option<Endpoint>)
    requires WellKeyed(m)
    ensures r.Some? ==> && r.value.id in order && r.value.id in m && m[r.value.id].key == r.value
                        && HoldsLocation(m[r.value.id].serviceIds, sid.location)
    ensures r.None? <==> forall i :: 0 <= i < |order| && order[i] in m ==> !HoldsLocation(m[order[i]].serviceIds, sid.location)
  {
    if |order| == 0 then None
    else if order[0] in m && HoldsLocation(m[order[0]].serviceIds, sid.location) then Some(m[order[0]].key)
    else
      var r := FindEndpoint(m, order[1..], sid);
      assert forall i :: 1 <= i < |order| ==> order[i] == order[1..][i - 1];
      r
  }

  lemma FindEndpointNoneIff(m: EdMap, order: seq<string>, sid: ServiceId)
    requires Valid(m, order)
    ensures FindEndpoint(m, order, sid).None? <==> !LocationKnown(m, sid.location)
  {
    if LocationKnown(m, sid.location) {
      var id, s :| id in m && s in m[id].serviceIds && s.location == sid.location;
      var i :| 0 <= i < |order| && order[i] == id;
    }
  }

  /** With consistent bookkeeping the description found does not depend on
      the iteration order. */
  lemma FindEndpointOrderIndependent(m: EdMap, o1: seq<string>, o2: seq<string>, sid: ServiceId)
    requires Consistent(m)
    requires Valid(m, o1) && Valid(m, o2)
    ensures FindEndpoint(m, o1, sid) == FindEndpoint(m, o2, sid)
  {
    FindEndpointNoneIff(m, o1, sid);
    FindEndpointNoneIff(m, o2, sid);
    var r1, r2 := FindEndpoint(m, o1, sid), FindEndpoint(m, o2, sid);
    if r1.Some? && r2.Some? {
      var s1 :| s1 in m[r1.value.id].serviceIds && s1.location == sid.location;
      var s2 :| s2 in m[r2.value.id].serviceIds && s2.location == sid.location;
    }
  }

  // ---------------------------------------------------------------------
  // isEndpointDescriptionUpdate
  // ---------------------------------------------------------------------

  /** An ECF description `p` with the received id and an older timestamp. */
  predicate EcfOlder(p: Endpoint, id: string, ts: int) {
    p.isEcf && p.id == id && p.timestamp.Some? && p.timestamp.value < ts
  }

  /** A description `p` with the received id whose modified value is
      missing or older. */
  predicate OsgiOlder(p: Endpoint, id: string, ts: int) {
    p.id == id && (p.modified.None? || p.modified.value < ts)
  }

  /** The last ECF description in the sequence. */
  function LastEcf(keys: seq<Endpoint>): (r: Option<Endpoint>)
    ensures r.Some? ==> r.value in keys && r.value.isEcf
    ensures r.None? <==> forall i :: 0 <= i < |keys| ==> !keys[i].isEcf
  {
    if |keys| == 0 then None
    else
      var later := LastEcf(keys[1..]);
      assert forall i :: 1 <= i < |keys| ==> keys[i] == keys[1..][i - 1];
      if later.Some? then later else if keys[0].isEcf then Some(keys[0]) else None
  }

  /** The loop of the ECF branch: `ped` ends as the last ECF description
      iterated, whatever its id. */
  function EcfScan(keys: seq<Endpoint>, id: string, ts: int, update: bool, ped: Option<Endpoint>): (r: (bool, Option<Endpoint>))
    requires update ==> ped.Some?
    ensures r.0 <==> update || exists i :: 0 <= i < |keys| && EcfOlder(keys[i], id, ts)
    ensures r.1 == if LastEcf(keys).Some? then LastEcf(keys) else ped
    ensures r.0 ==> r.1.Some?
  {
    if |keys| == 0 then (update, ped)
    else
      var p := keys[0];
      assert forall i :: 1 <= i < |keys| ==> keys[i] == keys[1..][i - 1];
      if p.isEcf then EcfScan(keys[1..], id, ts, update || EcfOlder(p, id, ts), Some(p))
      else EcfScan(keys[1..], id, ts, update, ped)
  }

  /** The loop of the other branch: `ped` ends as the last description
      iterated; `None` is the early `return null` on an equal value. */
  function OsgiScan(keys: seq<Endpoint>, id: string, ts: int, update: bool, ped: Option<Endpoint>): (r: Option<(bool, Option<Endpoint>)>)
    requires update ==> ped.Some?
    ensures r.None? <==> exists i :: 0 <= i < |keys| && keys[i].id == id && keys[i].modified == Some(ts)
    ensures r.Some? ==> (r.value.0 <==> update || exists i :: 0 <= i < |keys| && OsgiOlder(keys[i], id, ts))
    ensures r.Some? ==> r.value.1 == if |keys| > 0 then Some(keys[|keys| - 1]) else ped
    ensures r.Some? && r.value.0 ==> r.value.1.Some?
  {
    if |keys| == 0 then Some((update, ped))
    else
      var p := keys[0];
      assert forall i :: 1 <= i < |keys| ==> keys[i] == keys[1..][i - 1];
      if p.id != id then OsgiScan(keys[1..], id, ts, update, Some(p))
      else if p.modified.None? then OsgiScan(keys[1..], id, ts, true, Some(p))
      else if p.modified.value == ts then None
      else if p.modified.value < ts then OsgiScan(keys[1..], id, ts, true, Some(p))
      else OsgiScan(keys[1..], id, ts, update, Some(p))
  }

  /** `ed` updates what is known: the known description with its id is
      older. For ECF descriptions, older means an ECF description with an
      older timestamp; otherwise, one with a missing or older modified
      value. */
  predicate IsUpdate(m: EdMap, ed: Endpoint) {
    && ed.id in m
    && if ed.isEcf then ed.timestamp.Some? && EcfOlder(m[ed.id].key, ed.id, ed.timestamp.value)
       else ed.modified.Some? && OsgiOlder(m[ed.id].key, ed.id, ed.modified.value)
  }

  /** `updateEDServiceID`: the service IDs of `existing` are removed with
      its entry and put, with `sid` added, under `update`. */
  function UpdateEDServiceID(m: EdMap, existing: Endpoint, update: Endpoint, sid: ServiceId): (r: EdMap)
    ensures r.Keys == (m.Keys - {existing.id}) + {update.id}
    ensures r[update.id].serviceIds == (if existing.id in m then m[existing.id].serviceIds else {}) + {sid}
    ensures r[update.id].key == if update.id != existing.id && update.id in m then m[update.id].key else update
    ensures forall id :: id in m && id != existing.id && id != update.id ==> r[id] == m[id]
    ensures WellKeyed(m) ==> WellKeyed(r)
  {
    var ids := if existing.id in m then m[existing.id].serviceIds else {};
    var removed := m - {existing.id};
    var key := if update.id in removed then removed[update.id].key else update;
    removed[update.id := Entry(key, ids + {sid})]
  }

  /** The ECF loop finds an update exactly when the known description with
      the received id is older. */
  lemma EcfScanDecides(m: EdMap, order: seq<string>, ed: Endpoint)
    requires Valid(m, order) && ed.isEcf && ed.timestamp.Some?
    ensures EcfScan(KeyObjects(m, order), ed.id, ed.timestamp.value, false, None).0 <==> IsUpdate(m, ed)
  {
    var keys := KeyObjects(m, order);
    var ts := ed.timestamp.value;
    var r := EcfScan(keys, ed.id, ts, false, None);
    if IsUpdate(m, ed) {
      var i := PositionOf(m, order, ed.id);
      assert EcfOlder(keys[i], ed.id, ts);
    }
    if r.0 {
      var i :| 0 <= i < |keys| && EcfOlder(keys[i], ed.id, ts);
      assert m[order[i]].key.id == order[i];
    }
  }

  /** Where a key of the map comes in the iteration. */
  lemma PositionOf(m: EdMap, order: seq<string>, id: string) returns (i: nat)
    requires Valid(m, order) && id in m
    ensures i < |order| && order[i] == id
    ensures KeyObjects(m, order)[i] == m[id].key
  {
    i :| 0 <= i < |order| && order[i] == id;
  }

  /** The other loop finds an update exactly when the known description
      with the received id is older, and returns early exactly when it has
      the same modified value. */
  lemma OsgiScanDecides(m: EdMap, order: seq<string>, ed: Endpoint)
    requires Valid(m, order) && !ed.isEcf && ed.modified.Some?
    ensures var scan := OsgiScan(KeyObjects(m, order), ed.id, ed.modified.value, false, None);
            scan.Some? && scan.value.0 <==> IsUpdate(m, ed)
  {
    var keys := KeyObjects(m, order);
    var ts := ed.modified.value;
    var scan := OsgiScan(keys, ed.id, ts, false, None);
    if IsUpdate(m, ed) {
      var i := PositionOf(m, order, ed.id);
      assert OsgiOlder(keys[i], ed.id, ts);
      forall j | 0 <= j < |keys| && keys[j].id == ed.id
        ensures keys[j].modified != Some(ts)
      {
        assert m[order[j]].key.id == order[j];
      }
    }
    if scan.Some? && scan.value.0 {
      var i :| 0 <= i < |keys| && OsgiOlder(keys[i], ed.id, ts);
      assert m[order[i]].key.id == order[i];
    }
  }

  /** The ECF branch of `isEndpointDescriptionUpdate`. */
  function EcfUpdateCheck(m: EdMap, order: seq<string>, ed: Endpoint, sid: ServiceId): (r: (Option<Endpoint>, EdMap))
    requires Valid(m, order) && ed.isEcf
    ensures r.0.Some? <==> IsUpdate(m, ed)
    ensures r.0.Some? ==> r.0.value == ed
    ensures r.0.None? ==> r.1 == m
    ensures r.0.Some? ==>
      var last := LastEcf(KeyObjects(m, order));
      last.Some? && r.1 == UpdateEDServiceID(m, last.value, ed, sid)
  {
    if ed.timestamp.None? then (None, m)
    else
      EcfScanDecides(m, order, ed);
      var (update, ped) := EcfScan(KeyObjects(m, order), ed.id, ed.timestamp.value, false, None);
      if update then (Some(ed), UpdateEDServiceID(m, ped.value, ed, sid)) else (None, m)
  }

  /** The other branch of `isEndpointDescriptionUpdate`. */
  function OsgiUpdateCheck(m: EdMap, order: seq<string>, ed: Endpoint, sid: ServiceId): (r: (Option<Endpoint>, EdMap))
    requires Valid(m, order) && !ed.isEcf
    ensures r.0.Some? <==> IsUpdate(m, ed)
    ensures r.0.Some? ==> r.0.value == ed
    ensures r.0.None? ==> r.1 == m
    ensures r.0.Some? ==> |order| > 0 && r.1 == UpdateEDServiceID(m, m[order[|order| - 1]].key, ed, sid)
  {
    if ed.modified.None? then (None, m)
    else
      OsgiScanDecides(m, order, ed);
      var keys := KeyObjects(m, order);
      var scan := OsgiScan(keys, ed.id, ed.modified.value, false, None);
      if scan.Some? && scan.value.0 then
        // `ped`, the last description iterated
        assert |order| > 0;
        (Some(ed), UpdateEDServiceID(m, m[order[|order| - 1]].key, ed, sid))
      else (None, m)
  }

  /** `isEndpointDescriptionUpdate`: whether `ed` updates a known
      description, together with the map after the re-keying it performs. */
  function IsEndpointDescriptionUpdate(m: EdMap, order: seq<string>, ed: Endpoint, sid: ServiceId): (r: (Option<Endpoint>, EdMap))
    requires Valid(m, order)
    ensures r.0.Some? <==> IsUpdate(m, ed)
    ensures r.0.Some? ==> r.0.value == ed
    ensures r.0.None? ==> r.1 == m
    ensures r.0.Some? && ed.isEcf ==>
      var last := LastEcf(KeyObjects(m, order));
      last.Some? && r.1 == UpdateEDServiceID(m, last.value, ed, sid)
    ensures r.0.Some? && !ed.isEcf ==>
      |order| > 0 && r.1 == UpdateEDServiceID(m, m[order[|order| - 1]].key, ed, sid)
  {
    if ed.isEcf then EcfUpdateCheck(m, order, ed, sid) else OsgiUpdateCheck(m, order, ed, sid)
  }

  /** When the older description is the only entry, an update replaces it
      by the received description and adds the new service ID. */
  lemma UpdateOfSoleEntry(m: EdMap, ed: Endpoint, sid: ServiceId)
    requires WellKeyed(m) && m.Keys == {ed.id}
    requires IsUpdate(m, ed)
    ensures IsEndpointDescriptionUpdate(m, [ed.id], ed, sid)
         == (Some(ed), map[ed.id := Entry(ed, m[ed.id].serviceIds + {sid})])
  {
    assert Enumerates([ed.id], m.Keys);
    var keys := KeyObjects(m, [ed.id]);
    assert keys == [m[ed.id].key];
    if ed.isEcf {
      assert LastEcf(keys) == Some(m[ed.id].key) by {
        assert keys[1..] == [];
      }
    }
    var r := IsEndpointDescriptionUpdate(m, [ed.id], ed, sid).1;
    assert r.Keys == {ed.id};
  }

  /** As written, the entry an update empties is the last ECF description
      iterated, not necessarily the one with the received id: with the older
      same-id entry iterated first and another ECF entry after it, the other
      entry disappears, its service IDs (plus the new one) go to the same-id
      entry, and that entry keeps the older description as its key. */
  lemma UpdateRekeysLastIterated(m: EdMap, a: Endpoint, b: Endpoint, ed: Endpoint, sid: ServiceId)
    requires WellKeyed(m) && m.Keys == {a.id, b.id} && a.id != b.id
    requires m[a.id].key == a && m[b.id].key == b
    requires ed.isEcf && ed.timestamp.Some? && EcfOlder(a, ed.id, ed.timestamp.value)
    requires b.isEcf
    ensures IsEndpointDescriptionUpdate(m, [a.id, b.id], ed, sid)
         == (Some(ed), map[a.id := Entry(a, m[b.id].serviceIds + {sid})])
  {
    assert Enumerates([a.id, b.id], m.Keys);
    var keys := KeyObjects(m, [a.id, b.id]);
    assert keys == [a, b];
    assert keys[1..] == [b];
    assert LastEcf([b]) == Some(b) by {
      assert [b][1..] == [];
    }
    assert LastEcf(keys) == Some(b);
    assert IsUpdate(m, ed);
    RekeyOntoOther(m, a, b, ed, sid);
  }

  /** Re-keying the other entry onto the received id empties it into the
      entry already under that id. */
  lemma RekeyOntoOther(m: EdMap, a: Endpoint, b: Endpoint, ed: Endpoint, sid: ServiceId)
    requires m.Keys == {a.id, b.id} && a.id != b.id && m[a.id].key == a && ed.id == a.id
    ensures UpdateEDServiceID(m, b, ed, sid) == map[a.id := Entry(a, m[b.id].serviceIds + {sid})]
  {
    var r := UpdateEDServiceID(m, b, ed, sid);
    assert r.Keys == {a.id};
    assert r[a.id] == Entry(a, m[b.id].serviceIds + {sid});
  }

  // ---------------------------------------------------------------------
  // handleService, close
  // ---------------------------------------------------------------------

  /** The listener reacts only while open, and only to OSGi remote service
      IDs: those advertising the remote-service discovery type. */
  predicate Accepts(l: Listener, sid: ServiceId, remoteServiceType: string) {
    l.open && remoteServiceType in sid.serviceTypes
  }

  /** `matchServiceID`: an event for a service ID that does not advertise
      the remote-service discovery type changes nothing and notifies no one,
      whether it reports a discovery or an undiscovery. */
  lemma NonRemoteServiceIgnored(l: Listener, order: seq<string>, info: ServiceInfo, discovered: bool, remoteServiceType: string)
    requires Valid(l.edServiceIds, order)
    requires remoteServiceType !in info.serviceId.serviceTypes
    ensures HandleService(l, order, info, discovered, remoteServiceType) == (l, [])
  {
  }

  /** `handleService`: one discovery or undiscovery event. */
  function HandleService(l: Listener, order: seq<string>, info: ServiceInfo, discovered: bool, remoteServiceType: string): (r: (Listener, seq<Notification>))
    requires Valid(l.edServiceIds, order)
    ensures r.0.open == l.open
    ensures !Accepts(l, info.serviceId, remoteServiceType) ==> r == (l, [])
    ensures discovered && LocationKnown(l.edServiceIds, info.serviceId.location) ==> r == (l, [])
    ensures discovered && info.endpoint.None? ==> r == (l, [])
    ensures (&& discovered && Accepts(l, info.serviceId, remoteServiceType)
             && !LocationKnown(l.edServiceIds, info.serviceId.location) && info.endpoint.Some?
             && !IsUpdate(l.edServiceIds, info.endpoint.value)) ==>
      var ed := info.endpoint.value;
      if ed.id in l.edServiceIds then r == (l, [])
      else r == (Listener(true, l.edServiceIds[ed.id := Entry(ed, {info.serviceId})]), DescriptionNotes(ed, true))
    ensures (&& discovered && Accepts(l, info.serviceId, remoteServiceType)
             && !LocationKnown(l.edServiceIds, info.serviceId.location) && info.endpoint.Some?
             && IsUpdate(l.edServiceIds, info.endpoint.value)) ==>
      && r.1 == [EventNotification(Modified, info.endpoint.value)]
      && r.0.edServiceIds == IsEndpointDescriptionUpdate(l.edServiceIds, order, info.endpoint.value, info.serviceId).1
    ensures !discovered && !LocationKnown(l.edServiceIds, info.serviceId.location) ==> r == (l, [])
    ensures !discovered && Accepts(l, info.serviceId, remoteServiceType)
            && LocationKnown(l.edServiceIds, info.serviceId.location) ==>
      var e := FindEndpoint(l.edServiceIds, order, info.serviceId);
      && e.Some? && HoldsLocation(l.edServiceIds[e.value.id].serviceIds, info.serviceId.location)
      && r == (Listener(true, l.edServiceIds - {e.value.id}), DescriptionNotes(e.value, false))
  {
    var m := l.edServiceIds;
    var sid := info.serviceId;
    FindEndpointNoneIff(m, order, sid);
    if !Accepts(l, sid, remoteServiceType) then (l, [])
    else
      var found := FindEndpoint(m, order, sid);
      if discovered then
        if found.Some? then (l, [])
        else match info.endpoint
          case None => (l, [])
          case Some(ed) =>
            var (prev, m1) := IsEndpointDescriptionUpdate(m, order, ed, sid);
            if prev.None? then
              if ed.id !in m then
                (l.(edServiceIds := m[ed.id := Entry(ed, {sid})]), DescriptionNotes(ed, true))
              else (l, [])
            else (l.(edServiceIds := m1), [EventNotification(Modified, ed)])
      else
        match found
        case None => (l, [])
        case Some(ed) => (l.(edServiceIds := m - {ed.id}), DescriptionNotes(ed, false))
  }

  /** `close`: the locator is dropped and the map cleared. */
  function Close(l: Listener): (r: Listener)
    ensures !r.open && r.edServiceIds.Keys == {}
  {
    Listener(false, map[])
  }

  /** Once closed, a listener ignores every event. */
  lemma ClosedListenerInert(l: Listener, info: ServiceInfo, discovered: bool, remoteServiceType: string)
    ensures var closed := Close(l);
            HandleService(closed, [], info, discovered, remoteServiceType) == (closed, [])
  {
  }

  /** Every event keeps the map well keyed and the bookkeeping consistent. */
  lemma HandleServicePreservesConsistent(l: Listener, order: seq<string>, info: ServiceInfo, discovered: bool, remoteServiceType: string)
    requires Valid(l.edServiceIds, order)
    requires Consistent(l.edServiceIds)
    ensures var m' := HandleService(l, order, info, discovered, remoteServiceType).0.edServiceIds;
            WellKeyed(m') && Consistent(m')
  {
    var m := l.edServiceIds;
    var sid := info.serviceId;
    var m' := HandleService(l, order, info, discovered, remoteServiceType).0.edServiceIds;
    if !Accepts(l, sid, remoteServiceType) {
      assert m' == m;
    } else if !discovered {
      if LocationKnown(m, sid.location) {
        var e := FindEndpoint(m, order, sid).value;
        assert m' == m - {e.id};
        RemovalKeepsConsistent(m, e.id);
      } else {
        assert m' == m;
      }
    } else if !LocationKnown(m, sid.location) && info.endpoint.Some? {
      var ed := info.endpoint.value;
      if IsUpdate(m, ed) {
        assert m' == IsEndpointDescriptionUpdate(m, order, ed, sid).1;
        UpdateKeepsConsistent(m, order, ed, sid);
      } else if ed.id !in m {
        assert m' == m[ed.id := Entry(ed, {sid})];
        FreshEntryKeepsConsistent(m, ed, sid);
      } else {
        assert m' == m;
      }
    } else {
      assert m' == m;
    }
  }

  lemma RemovalKeepsConsistent(m: EdMap, id: string)
    requires WellKeyed(m) && Consistent(m)
    ensures WellKeyed(m - {id}) && Consistent(m - {id})
  {
  }

  /** An iterated key object is the key of its own entry. */
  lemma KeyObjectInMap(m: EdMap, order: seq<string>, p: Endpoint)
    requires Valid(m, order) && p in KeyObjects(m, order)
    ensures p.id in m && m[p.id].key == p
  {
    var keys := KeyObjects(m, order);
    var i :| 0 <= i < |keys| && keys[i] == p;
    assert m[order[i]].key.id == order[i];
  }

  lemma UpdateKeepsConsistent(m: EdMap, order: seq<string>, ed: Endpoint, sid: ServiceId)
    requires Valid(m, order) && Consistent(m) && !LocationKnown(m, sid.location)
    ensures var m' := IsEndpointDescriptionUpdate(m, order, ed, sid).1;
            WellKeyed(m') && Consistent(m')
  {
    if IsUpdate(m, ed) {
      var ped := UpdateIsRekey(m, order, ed, sid);
      RekeyKeepsConsistent(m, ped, ed, sid);
    }
  }

  /** An update re-keys the entry of some iterated key object. */
  lemma UpdateIsRekey(m: EdMap, order: seq<string>, ed: Endpoint, sid: ServiceId) returns (ped: Endpoint)
    requires Valid(m, order) && IsUpdate(m, ed)
    ensures ped.id in m && m[ped.id].key == ped
    ensures IsEndpointDescriptionUpdate(m, order, ed, sid).1 == UpdateEDServiceID(m, ped, ed, sid)
  {
    if ed.isEcf {
      ped := EcfUpdateIsRekey(m, order, ed, sid);
    } else {
      ped := OsgiUpdateIsRekey(m, order, ed, sid);
    }
  }

  lemma EcfUpdateIsRekey(m: EdMap, order: seq<string>, ed: Endpoint, sid: ServiceId) returns (ped: Endpoint)
    requires Valid(m, order) && IsUpdate(m, ed) && ed.isEcf
    ensures ped.id in m && m[ped.id].key == ped
    ensures EcfUpdateCheck(m, order, ed, sid).1 == UpdateEDServiceID(m, ped, ed, sid)
  {
    ped := LastEcf(KeyObjects(m, order)).value;
    KeyObjectInMap(m, order, ped);
  }

  lemma OsgiUpdateIsRekey(m: EdMap, order: seq<string>, ed: Endpoint, sid: ServiceId) returns (ped: Endpoint)
    requires Valid(m, order) && IsUpdate(m, ed) && !ed.isEcf
    ensures ped.id in m && m[ped.id].key == ped
    ensures OsgiUpdateCheck(m, order, ed, sid).1 == UpdateEDServiceID(m, ped, ed, sid)
  {
    assert |order| > 0 && order[|order| - 1] in m;
    ped := m[order[|order| - 1]].key;
  }

  lemma FreshEntryKeepsConsistent(m: EdMap, ed: Endpoint, sid: ServiceId)
    requires Consistent(m) && !LocationKnown(m, sid.location) && ed.id !in m
    ensures Consistent(m[ed.id := Entry(ed, {sid})])
  {
  }

  lemma RekeyKeepsConsistent(m: EdMap, ped: Endpoint, ed: Endpoint, sid: ServiceId)
    requires Consistent(m) && !LocationKnown(m, sid.location) && ped.id in m
    ensures Consistent(UpdateEDServiceID(m, ped, ed, sid))
  {
    var m' := UpdateEDServiceID(m, ped, ed, sid);
    forall id | id in m' ensures m'[id].serviceIds != {} {
      if id == ed.id { assert sid in m'[id].serviceIds; } else { assert m'[id] == m[id]; }
    }
    forall id1: string, s1: ServiceId | id1 in m' && s1 in m'[id1].serviceIds ensures OnlyAt(m', id1, s1) {
      forall id2: string, s2: ServiceId | id2 in m' && s2 in m'[id2].serviceIds && s2.location == s1.location
        ensures id2 == id1 && s2 == s1
      {
        RekeyPair(m, ped, ed, sid, id1, id2, s1, s2);
      }
    }
  }

  /** Two service IDs sharing a location after a re-keying: each comes from
      the entry it was under before, or is the new one. */
  lemma RekeyPair(m: EdMap, ped: Endpoint, ed: Endpoint, sid: ServiceId, id1: string, id2: string, s1: ServiceId, s2: ServiceId)
    requires Consistent(m) && !LocationKnown(m, sid.location) && ped.id in m
    requires var m' := UpdateEDServiceID(m, ped, ed, sid);
             id1 in m' && id2 in m' && s1 in m'[id1].serviceIds && s2 in m'[id2].serviceIds
    requires s1.location == s2.location
    ensures id1 == id2 && s1 == s2
  {
    if s1.location == sid.location {
      RekeyedNewId(m, ped, ed, sid, id1, s1);
      RekeyedNewId(m, ped, ed, sid, id2, s2);
    } else {
      RekeyedOldId(m, ped, ed, sid, id1, s1);
      RekeyedOldId(m, ped, ed, sid, id2, s2);
      assert OnlyAt(m, Origin(ped, ed, id1), s1);
    }
  }

  /** The entry a key of the re-keyed map was under before. */
  function Origin(ped: Endpoint, ed: Endpoint, id: string): string {
    if id == ed.id then ped.id else id
  }

  /** A service ID at the new location after a re-keying is the new one,
      under the received description's id. */
  lemma RekeyedNewId(m: EdMap, ped: Endpoint, ed: Endpoint, sid: ServiceId, id: string, s: ServiceId)
    requires !LocationKnown(m, sid.location) && ped.id in m
    requires var m' := UpdateEDServiceID(m, ped, ed, sid);
             id in m' && s in m'[id].serviceIds && s.location == sid.location
    ensures id == ed.id && s == sid
  {
    RekeyedEntry(m, ped, ed, sid, id);
    NewLocation(m, sid, Origin(ped, ed, id));
  }

  /** A service ID elsewhere after a re-keying was already recorded, under
      the entry the key comes from; distinct keys come from distinct
      entries. */
  lemma RekeyedOldId(m: EdMap, ped: Endpoint, ed: Endpoint, sid: ServiceId, id: string, s: ServiceId)
    requires !LocationKnown(m, sid.location) && ped.id in m
    requires var m' := UpdateEDServiceID(m, ped, ed, sid);
             id in m' && s in m'[id].serviceIds && s.location != sid.location
    ensures Origin(ped, ed, id) in m && s in m[Origin(ped, ed, id)].serviceIds
    ensures id != ed.id ==> Origin(ped, ed, id) != ped.id
  {
    RekeyedEntry(m, ped, ed, sid, id);
  }

  /** An entry of the re-keyed map holds what its origin held, plus the new
      service ID under the received description's id. */
  lemma RekeyedEntry(m: EdMap, ped: Endpoint, ed: Endpoint, sid: ServiceId, id: string)
    requires ped.id in m && id in UpdateEDServiceID(m, ped, ed, sid)
    ensures Origin(ped, ed, id) in m
    ensures UpdateEDServiceID(m, ped, ed, sid)[id].serviceIds
         == m[Origin(ped, ed, id)].serviceIds + (if id == ed.id then {sid} else {})
    ensures id != ed.id ==> Origin(ped, ed, id) != ped.id
  {
  }

  /** Nothing recorded under `id` shares the location of a new service ID. */
  lemma NewLocation(m: EdMap, sid: ServiceId, id: string)
    requires !LocationKnown(m, sid.location) && id in m
    ensures forall s :: s in m[id].serviceIds ==> s.location != sid.location
  {
  }

  /** After recording a service at a new location, only its entry holds
      that location. */
  lemma OnlyNewEntryHolds(m: EdMap, sid: ServiceId, ed: Endpoint, id: string)
    requires !LocationKnown(m, sid.location)
    requires id in m[ed.id := Entry(ed, {sid})]
    requires HoldsLocation(m[ed.id := Entry(ed, {sid})][id].serviceIds, sid.location)
    ensures id == ed.id
  {
    if id != ed.id {
      NewLocation(m, sid, id);
    }
  }

  /** Discovering a service at a new location and then undiscovering it
      leaves the bookkeeping as it was, announcing the description as
      added and then as removed. */
  lemma DiscoverThenUndiscover(l: Listener, order: seq<string>, info: ServiceInfo, remoteServiceType: string)
    requires Valid(l.edServiceIds, order)
    requires Accepts(l, info.serviceId, remoteServiceType)
    requires !LocationKnown(l.edServiceIds, info.serviceId.location)
    requires info.endpoint.Some? && info.endpoint.value.id !in l.edServiceIds
    ensures var (l1, added) := HandleService(l, order, info, true, remoteServiceType);
            var (l2, removed) := HandleService(l1, order + [info.endpoint.value.id], info, false, remoteServiceType);
            && l2 == l
            && added == DescriptionNotes(info.endpoint.value, true)
            && removed == DescriptionNotes(info.endpoint.value, false)
  {
    var ed := info.endpoint.value;
    var m1 := l.edServiceIds[ed.id := Entry(ed, {info.serviceId})];
    assert HandleService(l, order, info, true, remoteServiceType) == (Listener(true, m1), DescriptionNotes(ed, true));
    UndiscoverFresh(l, order, info, remoteServiceType);
  }

  /** Undiscovering the service just recorded at a new location removes
      exactly its entry. */
  lemma UndiscoverFresh(l: Listener, order: seq<string>, info: ServiceInfo, remoteServiceType: string)
    requires Valid(l.edServiceIds, order)
    requires Accepts(l, info.serviceId, remoteServiceType)
    requires !LocationKnown(l.edServiceIds, info.serviceId.location)
    requires info.endpoint.Some? && info.endpoint.value.id !in l.edServiceIds
    ensures var ed := info.endpoint.value;
            var m1 := l.edServiceIds[ed.id := Entry(ed, {info.serviceId})];
            HandleService(Listener(true, m1), order + [ed.id], info, false, remoteServiceType)
              == (l, DescriptionNotes(ed, false))
  {
    var ed := info.endpoint.value;
    var sid := info.serviceId;
    var m := l.edServiceIds;
    var m1 := m[ed.id := Entry(ed, {sid})];
    var order1 := order + [ed.id];
    assert Valid(m1, order1);
    assert sid in m1[ed.id].serviceIds;
    assert LocationKnown(m1, sid.location);
    var e := FindEndpoint(m1, order1, sid);
    assert e.Some?;
    OnlyNewEntryHolds(m, sid, ed, e.value.id);
    assert e.value == ed;
    assert m1 - {ed.id} == m;
  }

  /** A second discovery of a service already recorded changes nothing. */
  lemma RediscoveryIgnored(l: Listener, order: seq<string>, info: ServiceInfo, remoteServiceType: string)
    requires Valid(l.edServiceIds, order)
    requires Accepts(l, info.serviceId, remoteServiceType)
    requires !LocationKnown(l.edServiceIds, info.serviceId.location)
    requires info.endpoint.Some? && info.endpoint.value.id !in l.edServiceIds
    ensures var (l1, _) := HandleService(l, order, info, true, remoteServiceType);
            HandleService(l1, order + [info.endpoint.value.id], info, true, remoteServiceType) == (l1, [])
  {
    var ed := info.endpoint.value;
    var sid := info.serviceId;
    var m1 := l.edServiceIds[ed.id := Entry(ed, {sid})];
    var r1 := HandleService(l, order, info, true, remoteServiceType);
    assert r1.0 == Listener(true, m1);
    assert Valid(m1, order + [ed.id]);
    assert sid in m1[ed.id].serviceIds;
  }
}

=== FILE: manifest_paths.dfy ===
/** Reading the `Remote-Service` manifest header of a bundle: splitting it on
    commas and turning each entry into a directory and a file pattern to
    search for endpoint description files. */
module ManifestPaths {
  import opened Wrappers
  import opened Strings

  const HeaderSeparator: char := ','
  const XmlFilePattern: string := "*.xml"
  const Root: string := "/"

  /** Where `findEntries` is asked to look (non-recursively). */
  datatype Search = Search(directory: string, pattern: string)

  /** Every piece between separators, empty ones included. */
  function SplitAll(s: string, sep: char): (pieces: seq<string>)
    ensures |pieces| >= 1
    ensures forall i :: 0 <= i < |pieces| ==> sep !in pieces[i]
  {
    if |s| == 0 then [""]
    else
      var rest := SplitAll(s[1..], sep);
      if s[0] == sep then [""] + rest
      else [[s[0]] + rest[0]] + rest[1..]
  }

  /** The inverse of splitting: the pieces with separators between them. */
  function Join(pieces: seq<string>, sep: char): string
    requires |pieces| >= 1
  {
    if |pieces| == 1 then pieces[0] else pieces[0] + [sep] + Join(pieces[1..], sep)
  }

  /** Splitting loses nothing: joining the pieces gives the header back. */
  lemma {:induction false} JoinSplitAll(s: string, sep: char)
    ensures Join(SplitAll(s, sep), sep) == s
  {
    if |s| > 0 {
      JoinSplitAll(s[1..], sep);
      var rest := SplitAll(s[1..], sep);
      if s[0] == sep {
        assert SplitAll(s, sep)[1..] == rest;
      } else {
        var pieces := SplitAll(s, sep);
        assert pieces[0] == [s[0]] + rest[0];
        if |rest| > 1 {
          assert pieces[1..] == rest[1..];
          assert Join(rest, sep) == rest[0] + [sep] + Join(rest[1..], sep);
        }
      }
    }
  }

  /** Splitting a join of separator-free pieces gives the pieces back. */
  lemma {:induction false} SplitAllJoin(pieces: seq<string>, sep: char)
    requires |pieces| >= 1
    requires forall i :: 0 <= i < |pieces| ==> sep !in pieces[i]
    ensures SplitAll(Join(pieces, sep), sep) == pieces
    decreases |pieces|, |pieces[0]|
  {
    if |pieces[0]| > 0 {
      var s := Join(pieces, sep);
      var shorter := [pieces[0][1..]] + pieces[1..];
      assert Join(shorter, sep) == s[1..] by {
        if |pieces| > 1 {
          assert shorter[1..] == pieces[1..];
        }
      }
      SplitAllJoin(shorter, sep);
      assert s[0] == pieces[0][0];
      assert [s[0]] + shorter[0] == pieces[0];
      assert shorter[1..] == pieces[1..];
      assert pieces == [[s[0]] + shorter[0]] + shorter[1..];
    } else if |pieces| > 1 {
      var s := Join(pieces, sep);
      assert s == [sep] + Join(pieces[1..], sep);
      assert s[1..] == Join(pieces[1..], sep);
      SplitAllJoin(pieces[1..], sep);
    }
  }

  /** Trailing empty strings dropped, as `String.split` does. */
  function DropTrailingEmpty(pieces: seq<string>): (r: seq<string>)
    ensures |r| <= |pieces| && r == pieces[..|r|]
    ensures forall i :: |r| <= i < |pieces| ==> pieces[i] == ""
    ensures |r| > 0 ==> r[|r| - 1] != ""
  {
    if |pieces| == 0 then []
    else if pieces[|pieces| - 1] == "" then DropTrailingEmpty(pieces[..|pieces| - 1])
    else pieces
  }

  /** `String.split(",")`: the whole string when it holds no comma,
      otherwise the pieces without the trailing empty ones. */
  function JavaSplit(s: string, sep: char): (r: seq<string>)
    ensures sep !in s ==> r == [s]
    ensures forall i :: 0 <= i < |r| ==> sep !in r[i]
    ensures sep in s && |r| > 0 ==> r[|r| - 1] != ""
    ensures sep in s ==>
      var dropped := |SplitAll(s, sep)| - |r|;
      dropped >= 0 && Join(r + seq(dropped, _ => ""), sep) == s
  {
    if sep !in s then [s]
    else
      var all := SplitAll(s, sep);
      var r := DropTrailingEmpty(all);
      JoinSplitAll(s, sep);
      assert r + seq(|all| - |r|, _ => "") == all;
      r
  }

  /** The non-empty pieces, in order. */
  function NonEmpty(pieces: seq<string>): (r: seq<string>)
    ensures forall p :: p in r <==> p in pieces && p != ""
  {
    if |pieces| == 0 then []
    else if pieces[0] == "" then NonEmpty(pieces[1..])
    else [pieces[0]] + NonEmpty(pieces[1..])
  }

  lemma {:induction false} NonEmptyAppend(a: seq<string>, b: seq<string>)
    ensures NonEmpty(a + b) == NonEmpty(a) + NonEmpty(b)
  {
    if |a| > 0 {
      assert (a + b)[1..] == a[1..] + b;
      NonEmptyAppend(a[1..], b);
    } else {
      assert a + b == b;
    }
  }

  /** Dropping the trailing empty pieces loses no entry: `split` yields the
      same non-empty entries as the plain split. */
  lemma JavaSplitKeepsEntries(s: string, sep: char)
    ensures NonEmpty(JavaSplit(s, sep)) == NonEmpty(SplitAll(s, sep))
  {
    var all := SplitAll(s, sep);
    if sep !in s {
      assert all == [s] by {
        SplitAllJoin([s], sep);
      }
    } else {
      var kept := DropTrailingEmpty(all);
      assert all == kept + all[|kept|..];
      NonEmptyAppend(kept, all[|kept|..]);
      AllEmptyHasNoEntries(all[|kept|..]);
    }
  }

  lemma {:induction false} AllEmptyHasNoEntries(pieces: seq<string>)
    requires forall i :: 0 <= i < |pieces| ==> pieces[i] == ""
    ensures NonEmpty(pieces) == []
  {
    if |pieces| > 0 {
      AllEmptyHasNoEntries(pieces[1..]);
    }
  }

  /** A header of two comma-free entries, the second non-empty, splits into
      exactly those two. */
  lemma SplitTwoEntries(first: string, second: string)
    requires HeaderSeparator !in first && HeaderSeparator !in second
    requires second != ""
    ensures JavaSplit(first + [HeaderSeparator] + second, HeaderSeparator) == [first, second]
  {
    var s := first + [HeaderSeparator] + second;
    assert Join([first, second], HeaderSeparator) == s by {
      assert [first, second][1..] == [second];
    }
    SplitAllJoin([first, second], HeaderSeparator);
    assert s[|first|] == HeaderSeparator;
  }

  /** `handleEndpointDescriptionPath`, up to the `findEntries` call: where
      to search for one header entry, or `None` for an empty entry. */
  function ParsePath(path: string): (r: Option<Search>)
    ensures r.None? <==> path == ""
    ensures EndsWith(path, "/") ==> r == Some(Search(path, XmlFilePattern))
    ensures path != "" && '/' !in path ==> r == Some(Search(Root, path))
    ensures r.Some? && !EndsWith(path, "/") ==>
      && r.value.pattern != ""
      && '/' !in r.value.pattern
      && EndsWith(path, r.value.pattern)
      && r.value.directory != ""
  {
    if path == "" then None
    else if EndsWith(path, "/") then
      assert path[|path| - 1] == '/';
      Some(Search(path, XmlFilePattern))
    else
      var lastSlash := LastIndexOf(path, '/');
      if lastSlash == -1 then Some(Search(Root, path))
      else
        var directory := path[..lastSlash];
        var pattern := path[lastSlash + 1..];
        Some(Search(if directory == "" then Root else directory, pattern))
  }

  /** An entry `dir/file` is searched for `file` in `dir`, and in the root
      when `dir` is empty. */
  lemma PathRoundTrip(dir: string, file: string)
    requires file != "" && '/' !in file
    ensures ParsePath(dir + "/" + file) == Some(Search(if dir == "" then Root else dir, file))
  {
    var path := dir + "/" + file;
    assert path[|path| - 1] == file[|file| - 1];
    assert !EndsWith(path, "/") by {
      assert path[|path| - 1..] == [file[|file| - 1]];
      assert file[|file| - 1] in file;
    }
    var k := LastIndexOf(path, '/');
    assert path[|dir|] == '/';
    assert k == |dir|;
    assert path[..k] == dir;
    assert path[k + 1..] == file;
  }
}

=== FILE: proxy_detector.dfy ===
/** Detecting, after an HTTP request, whether the proxy authenticated the
    client with NTLM or with SPNEGO ("Negotiate"). */
module ProxyDetector {
  import opened Wrappers

  const SpnegoSchemeName: string := "NEGOTIATE"
  const NtlmSchemeName: string := "NTLM"

  /** The HttpClient objects consulted, each of which may be null. */
  datatype AuthScheme = AuthScheme(schemeName: Option<string>)
  datatype AuthState = AuthState(authScheme: Option<AuthScheme>)
  /** An execution context; only its proxy authentication state is read. */
  datatype HttpContext = HttpContext(proxyAuthState: Option<AuthState>)

  /** ASCII case mapping; every other character maps to itself. */
  function ToUpper(c: char): char {
    if 'a' <= c <= 'z' then (c as int - 32) as char else c
  }

  function ToLower(c: char): char {
    if 'A' <= c <= 'Z' then (c as int + 32) as char else c
  }

  /** `String.equalsIgnoreCase`, position by position: two characters agree
      when they are equal, or equal after upper-casing, or equal after
      lower-casing. */
  function EqualsIgnoreCase(a: string, b: string): bool {
    if |a| != |b| then false
    else if |a| == 0 then true
    else
      var c1, c2 := a[0], b[0];
      (c1 == c2 || ToUpper(c1) == ToUpper(c2) || ToLower(c1) == ToLower(c2))
      && EqualsIgnoreCase(a[1..], b[1..])
  }

  /** The whole string upper-cased. */
  function UpperCase(s: string): (u: string)
    ensures |u| == |s|
    ensures forall i :: 0 <= i < |s| ==> u[i] == ToUpper(s[i])
  {
    if |s| == 0 then [] else [ToUpper(s[0])] + UpperCase(s[1..])
  }

  /** A string without lower-case letters is its own upper case. */
  lemma UpperCaseKeepsUpper(s: string)
    requires forall i :: 0 <= i < |s| ==> !('a' <= s[i] <= 'z')
    ensures UpperCase(s) == s
  {
  }

  /** Over these case mappings, ignoring case means "equal once upper-cased". */
  lemma {:induction false} EqualsIgnoreCaseIsUpperCaseEquality(a: string, b: string)
    ensures EqualsIgnoreCase(a, b) <==> UpperCase(a) == UpperCase(b)
    decreases |a|
  {
    if |a| == |b| && |a| > 0 {
      EqualsIgnoreCaseIsUpperCaseEquality(a[1..], b[1..]);
      assert UpperCase(a) == [ToUpper(a[0])] + UpperCase(a[1..]);
      assert UpperCase(b) == [ToUpper(b[0])] + UpperCase(b[1..]);
      if UpperCase(a) == UpperCase(b) {
        assert UpperCase(a)[1..] == UpperCase(a[1..]);
        assert UpperCase(b)[1..] == UpperCase(b[1..]);
      }
    }
  }

  /** `isProxyType`: false for any missing piece, otherwise a case-blind
      comparison of the proxy's scheme name with `scheme`. */
  function IsProxyType(context: Option<HttpContext>, scheme: string): (b: bool)
    ensures b <==>
      && context.Some?
      && context.value.proxyAuthState.Some?
      && context.value.proxyAuthState.value.authScheme.Some?
      && context.value.proxyAuthState.value.authScheme.value.schemeName.Some?
      && UpperCase(context.value.proxyAuthState.value.authScheme.value.schemeName.value) == UpperCase(scheme)
  {
    match context
    case None => false
    case Some(ctx) =>
      match ctx.proxyAuthState
      case None => false
      case Some(authState) =>
        match authState.authScheme
        case None => false
        case Some(authScheme) =>
          match authScheme.schemeName
          case None => false
          case Some(schemeName) =>
            EqualsIgnoreCaseIsUpperCaseEquality(schemeName, scheme);
            EqualsIgnoreCase(schemeName, scheme)
  }

  /** The proxy's scheme name, when the context, its proxy authentication
      state, that state's scheme and the scheme's name are all present. */
  function ProxySchemeName(context: Option<HttpContext>): Option<string> {
    if context.Some? && context.value.proxyAuthState.Some?
       && context.value.proxyAuthState.value.authScheme.Some?
    then context.value.proxyAuthState.value.authScheme.value.schemeName
    else None
  }

  /** `detectNTLMProxy`: the proxy's scheme name is "NTLM" in any case. */
  function DetectNtlmProxy(context: Option<HttpContext>): (b: bool)
    ensures b <==> ProxySchemeName(context).Some? && UpperCase(ProxySchemeName(context).value) == "NTLM"
  {
    UpperCaseKeepsUpper(NtlmSchemeName);
    IsProxyType(context, NtlmSchemeName)
  }

  /** `detectSPNEGOProxy`: the proxy's scheme name is "NEGOTIATE" in any case. */
  function DetectSpnegoProxy(context: Option<HttpContext>): (b: bool)
    ensures b <==> ProxySchemeName(context).Some? && UpperCase(ProxySchemeName(context).value) == "NEGOTIATE"
  {
    UpperCaseKeepsUpper(SpnegoSchemeName);
    IsProxyType(context, SpnegoSchemeName)
  }

  /** No context is both an NTLM and a SPNEGO proxy context. */
  lemma DetectionsExclusive(context: Option<HttpContext>)
    ensures !(DetectNtlmProxy(context) && DetectSpnegoProxy(context))
  {
  }

  /** Any spelling of "ntlm" is detected as NTLM. */
  lemma LowerCaseNtlmDetected()
    ensures DetectNtlmProxy(Some(HttpContext(Some(AuthState(Some(AuthScheme(Some("ntlm"))))))))
    ensures !DetectSpnegoProxy(Some(HttpContext(Some(AuthState(Some(AuthScheme(Some("ntlm"))))))))
  {
    assert UpperCase("ntlm") == UpperCase(NtlmSchemeName);
  }
}

=== FILE: strings.dfy ===
/** The few `java.lang.String` operations the modelled code relies on. */
module Strings {

  predicate StartsWith(s: string, prefix: string) {
    |prefix| <= |s| && s[..|prefix|] == prefix
  }

  predicate EndsWith(s: string, suffix: string) {
    |suffix| <= |s| && s[|s| - |suffix|..] == suffix
  }

  /** `indexOf(c)`: the first position of `c`, or -1. */
  function IndexOf(s: string, c: char): (i: int)
    ensures -1 <= i < |s|
    ensures i == -1 <==> c !in s
    ensures 0 <= i ==> s[i] == c && c !in s[..i]
  {
    if |s| == 0 then -1
    else if s[0] == c then 0
    else
      var j := IndexOf(s[1..], c);
      if j == -1 then -1 else j + 1
  }

  /** `lastIndexOf(c)`: the last position of `c`, or -1. */
  function LastIndexOf(s: string, c: char): (i: int)
    ensures -1 <= i < |s|
    ensures i == -1 <==> c !in s
    ensures 0 <= i ==> s[i] == c && c !in s[i + 1..]
  {
    if |s| == 0 then -1
    else if s[|s| - 1] == c then |s| - 1
    else
      var j := LastIndexOf(s[..|s| - 1], c);
      assert j >= 0 ==> s[j + 1..] == s[..|s| - 1][j + 1..] + [s[|s| - 1]];
      j
  }
}

=== FILE: wrappers.dfy ===
/** Java's nullable references and checked exceptions, as values. */
module Wrappers {

  /** A reference that may be null: `None` stands for Java's `null`. */
  datatype Option<+T> = None | Some(value: T)

  /** The outcome of a call that either returns a value or throws. */
  datatype Result<+R, +E> = Success(value: R) | Failure(error: E)
}

=== FILE: xmpps_namespace.dfy ===
/** The XMPPS namespace: turning the arguments of `createInstance` into the
    string an XMPPS identifier is built from. */
module XmppsNamespace {
  import opened Wrappers
  import opened Strings

  /** The namespace's scheme. */
  const Scheme: string := "xmpps"

  /** The character between a scheme and the rest of an external form; it is
      declared by the `Namespace` base class, which is not part of this model. */
  const SchemeSeparator: char := ':'

  /** The prefix an external form of this namespace starts with. */
  const ExternalPrefix: string := Scheme + [SchemeSeparator]

  /** One element of the `Object[]` argument array. */
  datatype Arg = StringArg(s: string) | OtherArg(typeName: string)

  /** What `createInstance` passes on to the `XMPPSID` constructor (whose own
      checks are opaque here); `None` is a null string. */
  datatype IdInit = IdInit(init: Option<string>)

  /** The reason `IDCreateException` is thrown: the array access or the cast
      to `String` failed. */
  datatype CreateError = ArgsUnusable

  /** The scheme, "xmpps", which holds no separator. */
  function GetScheme(): (s: string)
    ensures s == "xmpps"
    ensures SchemeSeparator !in s
  {
    Scheme
  }

  /** The part after the scheme and its separator, or `None` when the first
      argument is missing, null, not a string, or not in external form. */
  function GetInitFromExternalForm(args: Option<seq<Option<Arg>>>): (r: Option<string>)
    ensures r.Some? <==>
      && args.Some? && |args.value| >= 1
      && args.value[0].Some? && args.value[0].value.StringArg?
      && StartsWith(args.value[0].value.s, ExternalPrefix)
    ensures r.Some? ==> args.value[0].value.s == ExternalPrefix + r.value
  {
    if args.None? || |args.value| < 1 || args.value[0].None? then None
    else match args.value[0].value
      case OtherArg(_) => None
      case StringArg(arg) =>
        if StartsWith(arg, GetScheme() + [SchemeSeparator]) then
          var index := IndexOf(arg, SchemeSeparator);
          SeparatorFollowsScheme(arg);
          if index >= |arg| then None
          else Some(arg[index + 1..])
        else None
  }

  /** In a string in external form the first separator is the one right
      after the scheme, because the scheme itself contains none. */
  lemma SeparatorFollowsScheme(s: string)
    requires StartsWith(s, ExternalPrefix)
    ensures IndexOf(s, SchemeSeparator) == |Scheme|
    ensures s == ExternalPrefix + s[|Scheme| + 1..]
  {
    assert s[|Scheme|] == ExternalPrefix[|Scheme|] == SchemeSeparator;
    assert SchemeSeparator !in s[..|Scheme|] by {
      assert s[..|Scheme|] == Scheme;
    }
    assert s[..|ExternalPrefix|] == ExternalPrefix;
  }

  /** `createInstance`: the stripped string when the first argument is in
      external form, otherwise the first argument cast to a string. */
  function CreateInstance(args: Option<seq<Option<Arg>>>): (r: Result<IdInit, CreateError>)
    ensures GetInitFromExternalForm(args).Some? ==> r == Success(IdInit(GetInitFromExternalForm(args)))
    ensures args.None? || |args.value| == 0 ==> r == Failure(ArgsUnusable)
    ensures args.Some? && |args.value| >= 1 && args.value[0].Some? && args.value[0].value.OtherArg?
            ==> r == Failure(ArgsUnusable)
    ensures args.Some? && |args.value| >= 1 && args.value[0].None? ==> r == Success(IdInit(None))
    ensures args.Some? && |args.value| >= 1 && args.value[0].Some? && args.value[0].value.StringArg?
            && !StartsWith(args.value[0].value.s, ExternalPrefix)
            ==> r == Success(IdInit(Some(args.value[0].value.s)))
  {
    match GetInitFromExternalForm(args)
    case Some(init) => Success(IdInit(Some(init)))
    case None =>
      if args.None? || |args.value| == 0 then Failure(ArgsUnusable)
      else match args.value[0]
        case None => Success(IdInit(None))
        case Some(OtherArg(_)) => Failure(ArgsUnusable)
        case Some(StringArg(s)) => Success(IdInit(Some(s)))
  }

  /** The external form of a name in this namespace. */
  function ToExternalForm(name: string): string {
    ExternalPrefix + name
  }

  /** Round trip: stripping the external form of any name gives back the
      name, whatever follows the first argument. */
  lemma {:induction false} ExternalFormRoundTrip(name: string, rest: seq<Option<Arg>>)
    ensures GetInitFromExternalForm(Some([Some(StringArg(ToExternalForm(name)))] + rest)) == Some(name)
    ensures CreateInstance(Some([Some(StringArg(ToExternalForm(name)))] + rest)) == Success(IdInit(Some(name)))
  {
    var s := ToExternalForm(name);
    assert s[..|ExternalPrefix|] == ExternalPrefix;
    SeparatorFollowsScheme(s);
    assert s[|Scheme| + 1..] == name;
  }

  /** The guard on the separator position never fires: the bare prefix
      strips to the empty string rather than to null. */
  lemma BarePrefixGivesEmptyName()
    ensures GetInitFromExternalForm(Some([Some(StringArg("xmpps:"))])) == Some("")
  {
    ExternalFormRoundTrip("", []);
    assert ToExternalForm("") == "xmpps:";
    assert [Some(StringArg("xmpps:"))] + [] == [Some(StringArg("xmpps:"))];
  }

  /** Creating from an external form and from the bare name give the same
      identifier input. */
  lemma ExternalFormAndBareNameAgree(name: string)
    requires !StartsWith(name, ExternalPrefix)
    ensures CreateInstance(Some([Some(StringArg(ToExternalForm(name)))]))
         == CreateInstance(Some([Some(StringArg(name))]))
  {
    ExternalFormRoundTrip(name, []);
    assert [Some(StringArg(ToExternalForm(name)))] + [] == [Some(StringArg(ToExternalForm(name)))];
  }
}
